=== FILE: README.md ===
# SimpleStateMachine in Dafny

A model of the transition engine of SimpleStateMachine, a small synchronous
finite-state machine for JavaScript, with proofs about it.

The machine keeps four things:

- an ordered registry of **states**;
- a pointer to the **current state**;
- an append-only **history** of the names entered;
- a **queue** of subscriptions made before `start`.

Each state object records whether it is `active`, how often it was visited
(`visitedCount`), its optional `onEnter`/`onLeave` callbacks and its list of
subscriber callbacks.

The model is functional. A machine is an immutable record (`Engine.Machine`).
Every operation is a pure function that returns an `Outcome`, which holds:

- the new machine;
- the trace of callbacks it invoked, in order;
- the error it threw, if any.

Callbacks are opaque function identities. Each invocation is a trace event that
carries two things:

- what the callback can see of the state object handed to it (name, `active`,
  `visitedCount`);
- the moment of the call (history length and current state's name).

So "leave, then history append, then set current, then enter, then subscribers"
becomes a statement about the trace.

Files:

- `values.dfy`: the host values the code inspects without interpreting them.
  Covers JavaScript truthiness for `initial` and `obj.initial || false`.
- `state.dfy`: the `State` constructor (field merge and defaults), plus
  `activate`, `deactivate`, `isActive` and `State.addMethod`. Property lookup
  is modelled as "own field, then prototype table".
- `registry.dfy`: `createStates` with wildcard expansion, the `getState` scan,
  and the order-keeping filter behind `getImpossibleStates`.
- `engine.dfy`: the bundled engine in `dist/simple-state-machine.js`, the one
  the test suite runs. Covers construction, `setStates`, the transition
  (`goToStateInternal` with `trackHistory`), `goToState`, `nextState`, the
  queries, `subscribeToState`, `start` and `decorateStates`.
- `properties.dfy`: properties of whole runs of calls:
  - the history length equals the total visit count;
  - each state's `visitedCount` equals the number of history entries naming it;
  - at most one state is active after `start`;
  - `nextState` cycles through the registry;
  - `getPreviousState` returns the state just left, provided the current state
    is a registry state and the last history entry names it. Every run without
    `setStates` keeps that link. After `setStates` the previous state can be null;
  - a subscription made before `start` gives the same subscriber lists and the
    same error as one made live just after it. A failing queued subscription
    also stops `start` before the initial state is entered, which the live one
    does not.
- `src_engine.dfy`: the unbundled engine in `src/StateMachine.js`. It differs
  from the bundled one in `goToState`, `isState` and `decorateStates`. The
  unguarded dereferences of those functions become `requires` clauses. All
  other functions of `src/StateMachine.js` are the same code as the bundled
  ones (lines 6-131, 144-153 and 160-278 apart from the three named), so the
  `Engine` members model them too.
- `scenarios.dfy`: the three-state ring that the engine's jasmine suite drives,
  with some of its expectations stated as lemmas.

Some behaviours of the code are easy to miss. The model follows the code in each:

- `start` neither clears nor marks the queue. A second `start` replays it again
  and re-enters the initial states. `EngineProperties.StartTwiceDoublesQueued`
  shows the doubled subscriber.
- Several states may be flagged initial. Construction marks them all active.
  `start` enters each in registry order, so the last one stays current.
- `setStates` after an activation leaves `currentState` pointing at an object
  that is no longer in the registry (`Engine.Current.Stale`).
- `goToState` before `start` can leave two states active.
  `EngineProperties.GoBeforeStartLeavesInitialActive` shows this.

## Model

| member | source | states |
|---|---|---|
| `StateEntity.NewState` | dist/simple-state-machine.js:6-23 | A new state has `visitedCount` 0. It is active exactly when the descriptor's `initial` is truthy, and its `initial` is the descriptor's `initial` when truthy and `false` otherwise, overriding the copied value. Every other descriptor field is copied unchanged. |
| `StateEntity.Activate` | src/State.js:42-49 | `activate(p)` sets `active` and adds exactly one to `visitedCount`, changing nothing else. Then it calls `onEnter(self, p)` if present, and the state it hands over is already active and counted. |
| `StateEntity.Deactivate` | src/State.js:55-61 | `deactivate()` clears `active` and leaves `visitedCount` and everything else alone. Then it calls `onLeave(self)` if present, handing over the already inactive state. |
| `StateEntity.IsActive` | src/State.js:67-69 | `isActive()` is the `active` property, whatever the prototype holds. |
| `StateEntity.AddMethod` | src/State.js:32-34 | After `addMethod(name, fn)`, every state object without an own `name` field resolves `name` to `fn`, including states built earlier. States with such an own field keep it, and other keys are unaffected. |
| `StateEntity.ActivateThenDeactivate` | dist/simple-state-machine.js:31-50 | Activating then deactivating a state leaves it inactive with exactly one more visit. |
| `Registry.Normalize` | dist/simple-state-machine.js:145-147 | A missing `possibleStates`, or one whose first element is `'*'`, becomes the full name list. Any other descriptor is left as it is. |
| `Registry.NormalizeIdempotent` | dist/simple-state-machine.js:145-147 | Normalizing twice against the same name list changes nothing more. |
| `Registry.CreateStates` | dist/simple-state-machine.js:133-152 | One state per descriptor, in input order. Each carries its descriptor's name, callbacks and free-form fields, and has no visits and no subscribers. It is active exactly when flagged initial, and its `initial` is the descriptor's when truthy and `false` otherwise. Its `possibleStates` is the full name list when the descriptor's was missing or wildcarded, and the descriptor's own list otherwise. |
| `Registry.Lookup` | dist/simple-state-machine.js:240-250 | `getState` finds the first state with the name, and finds nothing exactly when no state has it. |
| `Registry.Without` | dist/simple-state-machine.js:263-268 | The filter keeps exactly the names not excluded, and never lengthens the list. |
| `Registry.WithoutAppend` | dist/simple-state-machine.js:265-267 | The filter distributes over concatenation, so kept names stay in their original relative order. |
| `Registry.WithoutNothing` | dist/simple-state-machine.js:265-267 | With nothing to exclude, the filter returns its input unchanged, repetitions included. |
| `Engine.CurrentState` | dist/simple-state-machine.js:208-210 | `getCurrentState()` is null exactly before the first activation. A registry current state is the registry's own object. |
| `Engine.New` | dist/simple-state-machine.js:65-84 | A new machine is unstarted, with no current state, an empty history and an empty queue. Given descriptors, it holds the created states and their name list. Otherwise it has no states and no name list. |
| `Engine.SetStates` | dist/simple-state-machine.js:187-190 | `setStates` replaces the registry and the name list. It keeps history, queue and started flag. The current state object stays current but is no longer a registry member. |
| `Engine.LeaveCurrent` | dist/simple-state-machine.js:111-114 | The first step of a transition deactivates the current state, if any, and nothing else. The current pointer stays where it was, and a stale current object is the one deactivated. Its only callback is that state's `onLeave`, called while it is still current and the history is not yet extended. |
| `Engine.Transition` | dist/simple-state-machine.js:108-131 | The target becomes active and current, with one more visit. Exactly one history entry, the target's name, is appended. Every other state keeps its fields, except that the old current state is deactivated. |
| `Engine.EnterTarget` | dist/simple-state-machine.js:116-130 | Once the old state is left, the target's name is appended to the history and the target becomes current. The target alone is activated with one more visit. Its `onEnter` runs, then its subscribers in list order, all seeing the appended history. |
| `Engine.TransitionStates` | dist/simple-state-machine.js:108-131 | State by state: the target becomes active with one more visit. Every other state keeps its visit count and every field but `active`, and it is inactive afterwards if it was the old current state. |
| `Engine.TransitionTrace` | dist/simple-state-machine.js:108-131 | A transition's calls are exactly: the old state's `onLeave` if it has one, then the target's `onEnter` if it has one, then each of the target's subscribers once. Whether the target was already active makes no difference. |
| `Engine.TransitionCallbackOrder` | dist/simple-state-machine.js:108-131 | A transition makes one call per `onLeave` and `onEnter` present plus one per subscriber. The `onLeave` comes first and sees the old history and the state inactive. The `onEnter` comes next and sees the appended history and the target current, active and counted. |
| `Engine.TransitionNotifiesLast` | dist/simple-state-machine.js:127-130 | After both hooks, the remaining calls are the target's subscribers, each once, in list order, each seeing the target active and counted and the appended history. |
| `Engine.GoToState` | dist/simple-state-machine.js:292-305 | `goToState(n)` changes nothing and calls nothing exactly when `n` is unknown, or when a current state exists and does not list `n`. Otherwise it is the transition to the first state named `n`, which appends `n` to the history and makes it current. |
| `Engine.Successor` | dist/simple-state-machine.js:275-281 | The next index is a valid registry position. |
| `Engine.NextState` | dist/simple-state-machine.js:274-284 | `nextState` always moves, whatever `possibleStates` says, and never throws on a non-empty registry. |
| `Engine.NextStateWraps` | dist/simple-state-machine.js:274-284 | `nextState` is the transition to position `(i + 1) mod n`, where `i` is the current state's index (-1 when absent). From the last state it goes to position 0. |
| `Engine.GetState` | dist/simple-state-machine.js:240-250 | `getState(n)` finds a state exactly when some registry state is named `n`, and what it finds is a registry state named `n`. |
| `Engine.IsState` | dist/simple-state-machine.js:217-221 | `isState(n)` holds exactly when a current state exists and is named `n`. It is false while nothing is current. |
| `Engine.GetPreviousState` | dist/simple-state-machine.js:226-233 | Null with fewer than two history entries. Otherwise it is a registry state named by the second-to-last entry, and null exactly when no state has that name. |
| `Engine.GetPossibleStates` | dist/simple-state-machine.js:255-257 | The current state's `possibleStates`. For registered names, it is exactly the set `goToState` accepts. |
| `Engine.GetImpossibleStates` | dist/simple-state-machine.js:263-268 | A name is listed exactly when it is in the name list and not among the current state's `possibleStates`. The list is no longer than the name list. |
| `Engine.Push` | dist/simple-state-machine.js:335-343 | One accepted name appends the callback to the first state of that name, and to no other state. |
| `Engine.AttachEach` | dist/simple-state-machine.js:334-348 | The live subscription loop calls nothing and changes nothing but appends to subscriber lists. |
| `Engine.AttachEachThrows` | dist/simple-state-machine.js:334-348 | The loop throws exactly when some listed name is rejected: an unknown name, or any name when the callback is not a function. It throws at the first rejected name, an empty list never throws, and a non-function callback changes nothing. |
| `Engine.AttachEachAppends` | dist/simple-state-machine.js:334-348 | After the loop with a function callback, each state's subscriber list is its old list plus the callback once per accepted mention that lands on that state. Earlier additions stay when a later name fails. |
| `Engine.AcceptedHitsPrefix` | dist/simple-state-machine.js:334-348 | The accepted mentions are exactly those before the first rejected name, so names after the failing one have no effect. A name is rejected when it is unknown, and every name is rejected when the callback is not a function. |
| `Engine.Attach` | dist/simple-state-machine.js:326-332 | A live subscription calls nothing and only appends to subscriber lists. On a machine built without states, a pattern starting with `'*'` throws before touching anything. |
| `Engine.Subscribe` | dist/simple-state-machine.js:312-351 | Before `start`, `subscribeToState` only appends `[names, cb]` to the queue, with a lone string wrapped in a list. After `start`, it only appends to subscriber lists. It never calls anything. |
| `Engine.Replay` | dist/simple-state-machine.js:163-169 | Replaying the queue only appends to subscriber lists and calls nothing. |
| `Engine.ActivateInitials` | dist/simple-state-machine.js:171-178 | The activation loop never throws and keeps the registry size, the name list, the flag and the queue. |
| `Engine.ActivateInitialsHistory` | dist/simple-state-machine.js:171-178 | The loop appends the initial states' names to the history, in registry order. |
| `Engine.ActivateInitialsCurrent` | dist/simple-state-machine.js:171-178 | The loop leaves the last initial state current. With no initial state the current state is left as it was. |
| `Engine.ActivateInitialsIdle` | dist/simple-state-machine.js:171-178 | With no initial state, the loop changes nothing and calls nothing. |
| `Engine.ActivateInitialsSkeleton` | dist/simple-state-machine.js:171-178 | The loop keeps every state's name, `initial` flag and `possibleStates`. |
| `Engine.ActivateInitialsEntersFirst` | dist/simple-state-machine.js:171-178 | The loop skips the states not flagged initial. Its calls start with the full transition to the first initial state: `onLeave` of the current state, then `onEnter` and the subscribers of the entered one. The rest of the loop continues from the machine that transition leaves. |
| `Engine.ActivateSoleInitial` | dist/simple-state-machine.js:171-178 | On a machine that has entered nothing, with one initial state, the loop makes exactly the calls of entering that state: its `onEnter`, then each subscriber once in list order. |
| `Engine.ActivateInitialsVisits` | dist/simple-state-machine.js:171-178 | The loop visits each initial state exactly once and touches no subscriber list. |
| `Engine.Start` | dist/simple-state-machine.js:160-180 | `start` marks the machine started and keeps the queue. An error thrown while replaying the queue leaves history, current state and trace untouched. With an empty queue it never throws. |
| `Engine.StartEntersSoleInitial` | dist/simple-state-machine.js:160-180 | With one initial state and nothing entered, a `start` whose replay succeeds calls that state's `onEnter`, then every subscriber it holds after the replay, queued ones included. So the queue is replayed before the activation. |
| `Engine.StartActivatesInitials` | dist/simple-state-machine.js:160-180 | A successful `start` appends one history entry per initial state, in registry order, and leaves the last initial state current. It visits each initial state once and keeps every state's name, flag and `possibleStates`. |
| `Engine.DecorateStates` | dist/simple-state-machine.js:198-203 | `decorateStates(k, fn)` makes every present state resolve a free-form key `k` to `fn`, and changes no other key or field. |
| `EngineProperties.TransitionKeepsVisits` | dist/simple-state-machine.js:116-121 | With distinct names, a transition keeps every state's `visitedCount` equal to the number of history entries naming it. |
| `EngineProperties.TransitionBalanced` | dist/simple-state-machine.js:116-121 | A transition adds one history entry and one visit in total. |
| `EngineProperties.TransitionBalancedAll` | dist/simple-state-machine.js:116-121 | A transition keeps history and total visits in step and keeps every name. With distinct names, it keeps each state's count equal to its history entries. |
| `EngineProperties.SubscribeBalanced` | dist/simple-state-machine.js:312-351 | `subscribeToState` changes no history, no visit count and no name. |
| `EngineProperties.ActivateInitialsBalanced` | dist/simple-state-machine.js:171-178 | The activation loop keeps history and total visits in step. With distinct names, it keeps each state's count equal to its history entries. |
| `EngineProperties.StartBalanced` | dist/simple-state-machine.js:160-180 | `start` keeps history and total visits in step, keeps every name, and with distinct names keeps the per-state count agreement. |
| `EngineProperties.StepBalanced` | dist/simple-state-machine.js:155-352 | Every public call except `setStates` and `decorateStates` on a key the engine reads or calls keeps the history growing in step with the total visit count. It keeps state names, and keeps the per-state count agreement when names are distinct. |
| `EngineProperties.RunBalanced` | dist/simple-state-machine.js:155-352 | Over any sequence of calls except `setStates` and `decorateStates` on a key the engine reads or calls, history growth equals visit-count growth. With distinct names, each counter keeps matching its history entries. |
| `EngineProperties.StartOneActive` | dist/simple-state-machine.js:160-180 | On a freshly built machine, a successful `start` leaves only the current state active, however many states were flagged initial. |
| `EngineProperties.ActivateInitialsOneActive` | dist/simple-state-machine.js:171-178 | If every active state is current or an initial state not yet reached, the loop ends with only the current state active. |
| `EngineProperties.StepKeepsOneActive` | dist/simple-state-machine.js:155-352 | No public call except `setStates` and `decorateStates` on a key the engine reads or calls makes a second state active once only the current one is. |
| `EngineProperties.OnlyCurrentActive` | dist/simple-state-machine.js:111-123 | When only the current state is active, at most one state is active. |
| `EngineProperties.StartKeepsOneActive` | dist/simple-state-machine.js:160-180 | A repeated `start` keeps "only the current state is active". |
| `EngineProperties.RunKeepsOneActive` | dist/simple-state-machine.js:108-131 | Once only the current state is active, every sequence of calls except `setStates` and `decorateStates` on a key the engine reads or calls keeps it that way. |
| `EngineProperties.FreshMachine` | dist/simple-state-machine.js:65-84 | A freshly built machine has no visits and no current state, and exactly its initial states are active. |
| `EngineProperties.Lifetime` | dist/simple-state-machine.js:91-131 | After construction, `start` and any calls except `setStates` and `decorateStates` on a key the engine reads or calls: the history length equals the total visit count, only the current state can be active, so at most one state is. With distinct names, each state's `visitedCount` equals its history entries. Whenever the current state is a registry state, the last history entry names it, so `PreviousIsLeftState` applies to every transition of such a run. |
| `EngineProperties.GoBeforeStartLeavesInitialActive` | dist/simple-state-machine.js:292-302 | A `goToState` before `start` does not deactivate states that construction marked active, so two states are active. |
| `EngineProperties.NextTimesLands` | dist/simple-state-machine.js:274-284 | `k` calls of `nextState` land on the position `k` steps ahead round the registry. |
| `EngineProperties.AheadCycle` | dist/simple-state-machine.js:274-284 | `n` steps round a registry of `n` states come back to the start. |
| `EngineProperties.NextCycle` | dist/simple-state-machine.js:274-284 | As many `nextState` calls as there are states return to the starting state. |
| `EngineProperties.PreviousIsLeftState` | dist/simple-state-machine.js:226-233 | Suppose the current state is a registry state and the last history entry names it. After a transition, `getPreviousState` returns a state named like the one just left, and the last entry names the new current state. |
| `EngineProperties.PreviousAfterSetStates` | dist/simple-state-machine.js:226-233 | Suppose `setStates` drops the name entered last. After the next transition, the second-to-last history entry is that name, but `getPreviousState` returns null. |
| `EngineProperties.ActivateInitialsKeepsLast` | dist/simple-state-machine.js:170-179 | The activation loop of `start` keeps the last history entry naming the current registry state. |
| `EngineProperties.StartKeepsLast` | dist/simple-state-machine.js:160-180 | `start` keeps the last history entry naming the current registry state, whether or not its replay throws. |
| `EngineProperties.StepKeepsLast` | dist/simple-state-machine.js:108-131 | Every call except `setStates` and `decorateStates` on a key the engine reads or calls keeps the last history entry naming the current registry state. |
| `EngineProperties.RunKeepsLast` | dist/simple-state-machine.js:108-131 | Every sequence of such calls keeps the last history entry naming the current registry state. |
| `EngineProperties.DeferredMatchesLive` | dist/simple-state-machine.js:160-169 | A subscription made before `start` gives the same subscriber lists and the same error as one made right after it. |
| `EngineProperties.AttachAgrees` | dist/simple-state-machine.js:326-348 | Live subscriptions of the same names and callback on machines with the same names and subscriber lists throw the same error and leave the same lists. |
| `EngineProperties.AttachEachAll` | dist/simple-state-machine.js:334-348 | A function subscribed live to the registry's own distinct names throws nothing and lands exactly once on every state. |
| `EngineProperties.AttachWildcard` | dist/simple-state-machine.js:326-348 | A pattern led by `'*'` stands for the name list: on a machine whose name list is its registry's distinct names, it throws nothing and appends the callback once to every state. |
| `EngineProperties.DeferredHearsInitial` | dist/simple-state-machine.js:160-180 | A subscription to every state made before `start`, on a machine that has entered nothing and has one initial state, is in place when `start` enters that state. The calls of `start` are that state's `onEnter`, then its subscribers in list order, ending with the new one. |
| `EngineProperties.StartEmptyQueue` | dist/simple-state-machine.js:160-180 | With an empty queue, `start` is the activation loop alone. |
| `EngineProperties.StartOneQueued` | dist/simple-state-machine.js:160-180 | With one queued subscription, `start` makes it live, then runs the activation loop unless it threw. |
| `EngineProperties.StartOnce` | dist/simple-state-machine.js:160-169 | A single queued function subscription to a registered name appends the callback to that state on `start`. |
| `EngineProperties.StartTwiceDoublesQueued` | dist/simple-state-machine.js:160-169 | `start` keeps the queue, so a second `start` replays it. A callback queued once for a state ends up in its list twice. |
| `SrcEngine.GoToState` | src/StateMachine.js:227-232 | With a current state, and every allowed name registered, the unbundled `goToState` moves exactly when the name is allowed. It then behaves exactly as the bundled one. |
| `SrcEngine.IsState` | src/StateMachine.js:156-158 | With a current state, `isState(n)` compares its name and agrees with the bundled one. |
| `SrcEngine.DecorateStates` | src/StateMachine.js:139-142 | Decoration through the prototype reaches every state without an own field of that name, and no other key. |
| `SrcEngine.BootstrapOnlyBundled` | dist/simple-state-machine.js:292-305 | With nothing current, the bundled `goToState` enters any registered state. |
| `SrcEngine.DecorationReach` | src/StateMachine.js:139-142 | The prototype decoration reaches states of a registry set later, and the bundled per-instance decoration does not. Both reach the states present at the call. |
| `Scenarios.StartRing` | test/specs/state-machine-test.js:10-49 | Building and starting the suite's ring enters 'state1' once. |
| `Scenarios.BuildRing` | test/specs/state-machine-test.js:10-31 | Building the suite's ring gives a machine that has entered nothing, with 'state1' alone flagged initial and carrying the `onEnter` spy. |
| `Scenarios.DeferredScenario` | dist/simple-state-machine.js:160-180 | On the ring, `subscribeToState(['state1', 'state2', 'state3'], f)` before `start` makes `start` call the `onEnter` spy and then `f` exactly once, for 'state1'. |
| `Scenarios.SetStatesAfterStart` | dist/simple-state-machine.js:187-190 | `setStates` after `start` breaks both run invariants: the history keeps its entry while every counter is 0, and a new initial state is active while the current state is the replaced object. |
| `Scenarios.StartScenario` | test/specs/state-machine-test.js:55-71 | Right after `start`: `isState('state1')` holds, there is no previous state, and the impossible states are ['state1', 'state3']. |
| `Scenarios.AllowedScenario` | test/specs/state-machine-test.js:59-94 | Going to 'state2' gives history length 2 and one visit, and makes 'state1' the previous state. |
| `Scenarios.RefusedScenario` | test/specs/state-machine-test.js:81-88 | From 'state2', a jump to 'state1' is refused and changes nothing. |
| `Scenarios.NextScenario` | test/specs/state-machine-test.js:163-175 | Three `nextState` calls go to 'state2', then 'state3', then back to 'state1'. |

## Left out

- Host binding: the CommonJS, Angular and browser-global export (dist/simple-state-machine.js:354-370, src/main.js). It is environment glue.
- Examples, build configuration, the superseded engines (simple-state-machine.js, src/state-machine.js) and the legacy test file. They are not part of the engine.
- Timestamps: `enterTime: new Date()` reads the wall clock, so history entries are modelled as names only.
- Callback bodies are foreign code. The model records each call, and leaves out exceptions thrown by callbacks, re-entrant calls into the machine, and mutations callbacks make to the objects they receive.
- The `SM` back-reference that the unbundled `State` constructor stores (src/State.js:14). The engine never reads it.
- Descriptor fields that share a name with engine-managed ones other than `initial`, `visitedCount` and `active`: a descriptor `subscribers` array is kept as a free-form field, and every state starts with an empty subscriber list.
- An own property whose value is `undefined` is treated as absent. NaN is not a value of the model.
- Non-array `possibleStates`, non-string state names, and `subscribeToState` patterns that are neither a string nor a list.
- Mutation of the caller's descriptor objects by `createStates`, which writes the expanded `possibleStates` back, and the sharing of one `allStateNames` array between states.
- The message text of the subscription error. The model records the offending name. The source passes it as a second argument to `Error`, which drops it from the message.
- Engine.DecorateStates: only free-form keys are modelled. Decorating a key the engine itself reads, such as `name` or `active`, would overwrite that field in the source, and the model does not express this.
- Engine.NextState: requires a non-empty registry. On an empty one the source deactivates the current state and then throws while recording the history.
- Engine.GetPossibleStates: requires a current state. The source dereferences null otherwise.
- Engine.GetImpossibleStates: requires a current state, for the same reason.
- SrcEngine.GoToState: requires a current state, and requires every allowed name to be registered. Otherwise the source throws, in the second case after the old state's `onLeave` has already run.
- SrcEngine.IsState: requires a current state. The source dereferences null otherwise.
- EngineProperties.StepBalanced: `Op` has no `setStates`, and its `decorateStates` is restricted to keys the engine neither reads nor calls. In the source, `setStates` after `start` resets every counter while the history keeps its entries (`Scenarios.SetStatesAfterStart`). A `decorateStates('activate', f)` replaces the method a transition calls, so visits stop being counted.
- EngineProperties.RunBalanced: holds for runs without `setStates` and without `decorateStates` on a key the engine reads or calls, for the reasons above.
- EngineProperties.StepKeepsOneActive: `Op` has no `setStates`, and its `decorateStates` is restricted as above. In the source, `setStates` after `start` marks the new initial states active while `currentState` is the replaced object (`Scenarios.SetStatesAfterStart`). A `decorateStates('active', f)` makes every state's `active` truthy.
- EngineProperties.RunKeepsOneActive: holds for runs without `setStates` and without `decorateStates` on a key the engine reads or calls, for the reasons above.
- EngineProperties.Lifetime: holds for runs without `setStates` and without `decorateStates` on a key the engine reads or calls. Neither conclusion survives a `setStates` after `start`, a `decorateStates('activate', f)` or a `decorateStates('active', f)`.
- EngineProperties.PreviousIsLeftState: needs the current state to be a registry state that the last history entry names. `Lifetime` establishes this for every run without `setStates`. After `setStates`, `PreviousAfterSetStates` shows `getPreviousState` returning null.
- Scenarios: some tests of the jasmine suite are not restated as concrete lemmas (test/specs/state-machine-test.js:51-53, 65-67, 73-79, 96-113, 115-153, 155-161). These are the tests of `getState`, `getPossibleStates`, the parameters passed to `onEnter`, the hook calls over three jumps, live subscriptions, and a machine built without states. The general members `Engine.GetState`, `Engine.GetPossibleStates`, `Engine.TransitionCallbackOrder`, `Engine.TransitionNotifiesLast`, `Engine.AttachEachAppends`, `Engine.SetStates` and `Engine.StartActivatesInitials` state these behaviours for every input.
- Descriptor: the model keeps `name`, `initial`, `possibleStates`, `onEnter` and `onLeave` in typed fields and every other own property in `extra`. An `extra` that also holds one of those names encodes no JavaScript object: property lookup would see the `extra` entry while the engine reads only the typed field, so `Activate` fires no hook for an `onEnter` kept in `extra` and `createStates` ignores a `possibleStates` kept there. The model does not exclude such descriptors; its statements about them say nothing about the source.
- SrcEngine.DecorateStates: models only names the state methods do not use. `State.addMethod('activate', fn)` would replace the method the engine calls on every transition (src/State.js:32-34, 42), and the prototype table does not model that.
- `getCurrentState`'s object identity: two registry states with equal fields are distinct objects in the source. The model tells them apart by position (`Engine.Current.At`) and never compares state objects.

=== FILE: engine.dfy ===
/** The transition engine `SimpleStateMachine` as shipped in the distributed bundle:
    registry, current-state pointer, history, subscription queue, and the operations
    on them. Every operation is a function from a machine to an `Outcome`: the new
    machine, the callbacks invoked (in order), and the error thrown, if any. */
module Engine {
  import opened Values
  import opened StateEntity
  import opened Registry

  /** Where `currentState` points. */
  datatype Current =
    | NoCurrent             // no activation yet
    | At(index: nat)       // a state of the present registry
    | Stale(state: State)  // a state of a registry that `setStates` has since replaced

  /** A subscription made before `start`: the list of names (or the wildcard) and the callback. */
  datatype Subscription = Subscription(names: seq<string>, cb: Value)

  datatype MachineRecord = MachineRecord(
    states: seq<State>,
    allStateNames: Option<seq<string>>,  // undefined until the first `setStates`
    current: Current,
    history: seq<string>,                // the `stateName` of each history entry
    initialized: bool,
    subscribeQueue: seq<Subscription>)

  /** Facts every reachable machine satisfies: registry states carry a `possibleStates`
      list, the current index is in range, and a machine without a name index has no states. */
  predicate WellFormed(m: MachineRecord) {
    && (forall j :: 0 <= j < |m.states| ==> m.states[j].possibleStates.Some?)
    && (m.current.At? ==> m.current.index < |m.states|)
    && (m.current.Stale? ==> m.current.state.possibleStates.Some?)
    && (m.allStateNames.None? ==> m.states == [] && !m.current.Stale?)
  }

  type Machine = m: MachineRecord | WellFormed(m)
    witness MachineRecord([], None, NoCurrent, [], false, [])

  /** When a callback runs: the history length and the current state's name at that moment. */
  datatype Moment = Moment(historyLength: nat, current: Option<string>)

  /** One callback invocation, in the order the engine makes them. */
  datatype Event =
    | Lifecycle(hook: Hook, at: Moment)
    | Notify(sub: FnId, self: Snapshot, at: Moment)

  /** The errors `subscribeToState` throws: an unknown name or a non-function callback
      (`Error`), or a wildcard on a machine that never received states (`TypeError`). */
  datatype Failure = CannotSubscribe(name: string) | NoStateNames

  datatype Outcome = Outcome(machine: Machine, trace: seq<Event>, thrown: Option<Failure>)

  /** `getCurrentState()`. */
  function CurrentState(m: Machine): (r: Option<State>)
    ensures r.Some? <==> !m.current.NoCurrent?
    ensures r.Some? ==> r.value.possibleStates.Some?
    ensures m.current.At? ==> r == Some(m.states[m.current.index])
  {
    match m.current
    case NoCurrent => None
    case At(i) => Some(m.states[i])
    case Stale(s) => Some(s)
  }

  function CurrentName(m: Machine): Option<string> {
    match CurrentState(m)
    case None => None
    case Some(s) => Some(s.name)
  }

  /** The current state's `possibleStates`. */
  function Possibles(m: Machine): seq<string>
    requires !m.current.NoCurrent?
  {
    CurrentState(m).value.possibleStates.value
  }

  function Stamp(hooks: seq<Hook>, at: Moment): (r: seq<Event>)
    ensures |r| == |hooks|
    ensures forall i {:trigger r[i]} :: 0 <= i < |hooks| ==> r[i] == Lifecycle(hooks[i], at)
  {
    seq(|hooks|, i requires 0 <= i < |hooks| => Lifecycle(hooks[i], at))
  }

  /** The subscriber calls of an activation: each subscriber, in list order, handed the state. */
  function Notifications(s: State, at: Moment): (r: seq<Event>)
    ensures |r| == |s.subscribers|
    ensures forall k {:trigger r[k]} :: 0 <= k < |s.subscribers| ==> r[k] == Notify(s.subscribers[k], SnapshotOf(s), at)
  {
    seq(|s.subscribers|, k requires 0 <= k < |s.subscribers| => Notify(s.subscribers[k], SnapshotOf(s), at))
  }

  // ---------------------------------------------------------------------------
  // Construction

  /** `setStates(descriptors)`: replace the registry and the name index. The current
      state object is kept, but it no longer belongs to the registry. */
  function SetStates(m: Machine, ds: seq<Descriptor>): (r: Machine)
    ensures r.states == CreateStates(ds) && r.allStateNames == Some(NamesOf(ds))
    ensures r.history == m.history && r.initialized == m.initialized && r.subscribeQueue == m.subscribeQueue
    ensures CurrentState(r) == CurrentState(m)
    ensures !r.current.At?
  {
    var current := match m.current
      case NoCurrent => NoCurrent
      case At(i) => Stale(m.states[i])
      case Stale(s) => Stale(s);
    MachineRecord(CreateStates(ds), Some(NamesOf(ds)), current, m.history, m.initialized, m.subscribeQueue)
  }

  /** `new SimpleStateMachine(descriptors)`: unstarted, no current state, empty history and queue. */
  function New(descriptors: Option<seq<Descriptor>>): (m: Machine)
    ensures m.current.NoCurrent? && m.history == [] && !m.initialized && m.subscribeQueue == []
    ensures descriptors.None? ==> m.states == [] && m.allStateNames.None?
    ensures descriptors.Some? ==> m.states == CreateStates(descriptors.value)
    ensures descriptors.Some? ==> m.allStateNames == Some(NamesOf(descriptors.value))
  {
    var empty := MachineRecord([], None, NoCurrent, [], false, []);
    match descriptors
    case None => empty
    case Some(ds) => SetStates(empty, ds)
  }

  // ---------------------------------------------------------------------------
  // The transition

  /** The registry once the current state is left: the current state, when it belongs
      to the registry, inactive; everything else as it was. */
  function Deactivated(m: Machine): (r: seq<State>)
    ensures |r| == |m.states|
  {
    match m.current
    case At(i) => m.states[i := m.states[i].(active := false)]
    case _ => m.states
  }

  /** First step of a transition: deactivate the current state, if any. */
  function LeaveCurrent(m: Machine): (r: Outcome)
    ensures r.thrown.None?
    ensures r.machine.states == Deactivated(m)
    ensures r.machine.history == m.history
    ensures r.machine.current == (if m.current.Stale? then Stale(m.current.state.(active := false)) else m.current)
    ensures CurrentState(m).Some? ==> CurrentState(r.machine) == Some(CurrentState(m).value.(active := false))
    ensures (r.machine.allStateNames, r.machine.initialized, r.machine.subscribeQueue)
         == (m.allStateNames, m.initialized, m.subscribeQueue)
    ensures var c := CurrentState(m);
            && (c.None? || c.value.onLeave.None? ==> r.trace == [])
            && (c.Some? && c.value.onLeave.Some? ==>
                  r.trace == [Lifecycle(Left(c.value.onLeave.value, Snapshot(c.value.name, false, c.value.visitedCount)),
                                        Moment(|m.history|, Some(c.value.name)))])
  {
    var at := Moment(|m.history|, CurrentName(m));
    match m.current
    case NoCurrent => Outcome(m, [], None)
    case At(i) =>
      var f := Deactivate(m.states[i]);
      Outcome(m.(states := m.states[i := f.state]), Stamp(f.hooks, at), None)
    case Stale(s) =>
      var f := Deactivate(s);
      Outcome(m.(current := Stale(f.state)), Stamp(f.hooks, at), None)
  }

  /** The `onLeave` call a transition from `m` makes, if any: the current state already
      inactive, the history not yet extended. */
  function LeaveEvents(m: Machine): seq<Event> {
    var c := CurrentState(m);
    if c.Some? && c.value.onLeave.Some? then
      [Lifecycle(Left(c.value.onLeave.value, Snapshot(c.value.name, false, c.value.visitedCount)),
                 Moment(|m.history|, Some(c.value.name)))]
    else []
  }

  /** What an entered state's callbacks see: the state active, with one more visit. */
  function Seen(s: State): Snapshot {
    Snapshot(s.name, true, s.visitedCount + 1)
  }

  /** How many `onLeave` calls leaving the current state of `m` makes: one when there is
      a current state and it has an `onLeave`, none otherwise. */
  function Leaves(m: Machine): nat {
    if CurrentState(m).Some? && CurrentState(m).value.onLeave.Some? then 1 else 0
  }

  /** How many `onEnter` calls entering `s` makes. */
  function Enters(s: State): nat {
    if s.onEnter.Some? then 1 else 0
  }

  /** The entered state's `onEnter` call at moment `at`, if it has one. */
  function EnterEvents(s: State, at: Moment, params: Value): seq<Event> {
    if s.onEnter.Some? then [Lifecycle(Entered(s.onEnter.value, Seen(s), params), at)] else []
  }

  /** The entered state's subscribers at moment `at`, each called once, in list order. */
  function NotifyEvents(s: State, at: Moment): (r: seq<Event>)
    ensures |r| == |s.subscribers|
    ensures forall k {:trigger r[k]} :: 0 <= k < |r| ==> r[k] == Notify(s.subscribers[k], Seen(s), at)
  {
    seq(|s.subscribers|, k requires 0 <= k < |s.subscribers| => Notify(s.subscribers[k], Seen(s), at))
  }

  /** The moment a transition to `t` runs the target's callbacks: history extended by
      the target, the target current. */
  function After(m: Machine, t: nat): Moment
    requires t < |m.states|
  {
    Moment(|m.history| + 1, Some(m.states[t].name))
  }

  /** The rest of a transition once the old state is left: append the target's name to
      the history, make the target current, activate it (its `onEnter` runs), then call
      its subscribers in list order. */
  function EnterTarget(m: Machine, t: nat, params: Value): (r: Outcome)
    requires t < |m.states|
    ensures r.thrown.None?
    ensures r.machine == m.(history := m.history + [m.states[t].name], current := At(t),
                            states := m.states[t := m.states[t].(active := true, visitedCount := m.states[t].visitedCount + 1)])
    ensures r.trace == EnterEvents(m.states[t], After(m, t), params) + NotifyEvents(m.states[t], After(m, t))
  {
    var target := m.states[t];
    var entered := Activate(target, params);
    var m2 := m.(history := m.history + [target.name], current := At(t), states := m.states[t := entered.state]);
    var after := Moment(|m2.history|, Some(target.name));
    assert Notifications(entered.state, after) == NotifyEvents(target, after);
    Outcome(m2, Stamp(entered.hooks, after) + Notifications(entered.state, after), None)
  }

  /** `goToStateInternal(states[t], params)`: leave the current state, append the target's
      name to the history, make the target current, then activate it. The callbacks this
      invokes, and their order, are the subject of `TransitionCallbackOrder`. */
  function Transition(m: Machine, t: nat, params: Value): (r: Outcome)
    requires t < |m.states|
    ensures r.thrown.None?
    ensures r.machine.history == m.history + [m.states[t].name]
    ensures r.machine.current == At(t)
    ensures r.machine.states == Deactivated(m)[t := m.states[t].(active := true, visitedCount := m.states[t].visitedCount + 1)]
    ensures (r.machine.allStateNames, r.machine.initialized, r.machine.subscribeQueue)
         == (m.allStateNames, m.initialized, m.subscribeQueue)
  {
    var left := LeaveCurrent(m);
    var entered := EnterTarget(left.machine, t, params);
    Outcome(entered.machine, left.trace + entered.trace, None)
  }

  /** What a transition does to the registry, state by state: the target becomes active
      and gains a visit; the state that was current becomes inactive; every other state,
      and every other property of these two, stays as it was. */
  lemma TransitionStates(m: Machine, t: nat, params: Value)
    requires t < |m.states|
    ensures var r := Transition(m, t, params).machine;
            && |r.states| == |m.states|
            && r.states[t] == m.states[t].(active := true, visitedCount := m.states[t].visitedCount + 1)
            && forall j :: 0 <= j < |m.states| && j != t ==>
                 r.states[j] == m.states[j].(active := m.states[j].active && m.current != At(j))
  {
  }

  /** The callbacks of a transition are the old state's `onLeave`, then the target's
      `onEnter`, then the target's subscribers, and nothing else. */
  lemma TransitionTrace(m: Machine, t: nat, params: Value)
    requires t < |m.states|
    ensures Transition(m, t, params).trace
         == LeaveEvents(m) + EnterEvents(m.states[t], After(m, t), params) + NotifyEvents(m.states[t], After(m, t))
  {
    var left := LeaveCurrent(m);
    var target := left.machine.states[t];
    var entered := EnterTarget(left.machine, t, params);
    assert left.trace == LeaveEvents(m);
    assert Transition(m, t, params).trace == left.trace + entered.trace;
    assert target.(active := m.states[t].active) == m.states[t];
    assert After(left.machine, t) == After(m, t);
    EntryIgnoresActive(target, m.states[t], After(m, t), params);
    var e := EnterEvents(m.states[t], After(m, t), params);
    var n := NotifyEvents(m.states[t], After(m, t));
    assert entered.trace == e + n;
    assert left.trace + (e + n) == left.trace + e + n;
  }

  /** Entering a state calls the same callbacks whether or not it was active before. */
  lemma EntryIgnoresActive(a: State, b: State, at: Moment, params: Value)
    requires a.(active := b.active) == b
    ensures EnterEvents(a, at, params) == EnterEvents(b, at, params)
    ensures NotifyEvents(a, at) == NotifyEvents(b, at)
  {
    assert Seen(a) == Seen(b);
  }

  /** The ordering contract of a transition, position by position: first the old state's
      `onLeave`, which still sees the old history and itself as current but already
      inactive; then the target's `onEnter`, which sees the appended history, itself
      current, active and counted; then (`TransitionNotifiesLast`) the subscribers. */
  lemma TransitionCallbackOrder(m: Machine, t: nat, params: Value)
    requires t < |m.states|
    ensures |Transition(m, t, params).trace| == Leaves(m) + Enters(m.states[t]) + |m.states[t].subscribers|
    ensures Leaves(m) == 1 ==>
              var c := CurrentState(m).value;
              Transition(m, t, params).trace[0]
                == Lifecycle(Left(c.onLeave.value, Snapshot(c.name, false, c.visitedCount)), Moment(|m.history|, Some(c.name)))
    ensures Enters(m.states[t]) == 1 ==>
              Transition(m, t, params).trace[Leaves(m)]
                == Lifecycle(Entered(m.states[t].onEnter.value, Seen(m.states[t]), params), After(m, t))
  {
    TransitionTrace(m, t, params);
    assert |LeaveEvents(m)| == Leaves(m);
    TraceOrder(Transition(m, t, params).trace, LeaveEvents(m), m.states[t], After(m, t), params);
  }

  /** The rest of the ordering contract: after the `onLeave` and `onEnter` calls come the
      target's subscribers, each once, in list order, seeing the target active and counted,
      the history appended and the target current (see `NotifyEvents`). */
  lemma TransitionNotifiesLast(m: Machine, t: nat, params: Value)
    requires t < |m.states|
    ensures Leaves(m) + Enters(m.states[t]) <= |Transition(m, t, params).trace|
    ensures Transition(m, t, params).trace[Leaves(m) + Enters(m.states[t])..] == NotifyEvents(m.states[t], After(m, t))
  {
    TransitionTrace(m, t, params);
    assert |LeaveEvents(m)| == Leaves(m);
    TraceOrder(Transition(m, t, params).trace, LeaveEvents(m), m.states[t], After(m, t), params);
  }

  /** Positions in a trace made of some leading calls, then an entry into `s`. */
  lemma TraceOrder(trace: seq<Event>, l: seq<Event>, s: State, at: Moment, params: Value)
    requires trace == l + EnterEvents(s, at, params) + NotifyEvents(s, at)
    ensures |trace| == |l| + Enters(s) + |s.subscribers|
    ensures |l| > 0 ==> trace[0] == l[0]
    ensures Enters(s) == 1 ==> trace[|l|] == Lifecycle(Entered(s.onEnter.value, Seen(s), params), at)
    ensures trace[|l| + Enters(s)..] == NotifyEvents(s, at)
  {
    var e := EnterEvents(s, at, params);
    assert |e| == Enters(s);
    assert trace[|l| + |e|..] == NotifyEvents(s, at);
  }

  // ---------------------------------------------------------------------------
  // Moving between states

  /** The guard of `goToState`: the name is registered, and either nothing is current
      yet or the current state lists the name among its `possibleStates`. */
  predicate MayEnter(m: Machine, name: string) {
    Lookup(m.states, name).Some? && (m.current.NoCurrent? || name in Possibles(m))
  }

  /** `goToState(name, params)`: a transition to the first state of that name when the
      guard allows it; otherwise nothing at all happens. */
  function GoToState(m: Machine, name: string, params: Value): (r: Outcome)
    ensures r.thrown.None?
    ensures (r.machine == m && r.trace == []) <==> !MayEnter(m, name)
    ensures MayEnter(m, name) ==> r == Transition(m, Lookup(m.states, name).value, params)
    ensures MayEnter(m, name) ==> r.machine.history == m.history + [name] && CurrentName(r.machine) == Some(name)
  {
    var target := Lookup(m.states, name);
    if target.Some? && (m.current.NoCurrent? || name in Possibles(m)) then
      Transition(m, target.value, params)
    else
      Outcome(m, [], None)
  }

  /** Position of the current state in the registry (`states.indexOf(currentState)`), -1 if absent. */
  function CurrentIndex(m: Machine): int {
    if m.current.At? then m.current.index else -1
  }

  /** The position after `i` in a registry of `n` states: one on, back to 0 past the end. */
  function SuccessorIndex(i: int, n: nat): int {
    if i + 1 >= n then 0 else i + 1
  }

  /** The index `nextState` moves to: the successor of the current state's position,
      which is -1 when nothing current is in the registry. */
  function Successor(m: Machine): (i: nat)
    requires |m.states| > 0
    ensures i < |m.states|
  {
    SuccessorIndex(CurrentIndex(m), |m.states|)
  }

  /** `nextState(params)`: a transition to the registry successor of the current state,
      with no guard. The source fails on an empty registry. */
  function NextState(m: Machine, params: Value): (r: Outcome)
    requires |m.states| > 0
    ensures r.thrown.None? && r.machine.current == At(Successor(m))
  {
    Transition(m, Successor(m), params)
  }

  /** `nextState` goes to position `(i + 1) mod n`, where `i` is the current state's
      position (-1 when it has none in the registry), ignoring `possibleStates`. */
  lemma NextStateWraps(m: Machine, params: Value)
    requires |m.states| > 0
    ensures NextState(m, params) == Transition(m, (CurrentIndex(m) + 1) % |m.states|, params)
    ensures m.current == At(|m.states| - 1) ==> NextState(m, params).machine.current == At(0)
  {
    WrapIsModulo(CurrentIndex(m) + 1, |m.states|);
  }

  /** The source's "past the end, back to 0" step is a modulo for indices up to the length. */
  lemma WrapIsModulo(next: int, n: int)
    requires 0 <= next <= n && n > 0
    ensures (if next >= n then 0 else next) == next % n
  {
    if next == n {
      assert next % n == 0;
    } else {
      assert next % n == next;
    }
  }

  // ---------------------------------------------------------------------------
  // Queries

  /** `getState(name)`. */
  function GetState(m: Machine, name: string): (r: Option<State>)
    ensures r.Some? <==> exists j :: 0 <= j < |m.states| && m.states[j].name == name
    ensures r.Some? ==> r.value.name == name && r.value in m.states
  {
    match Lookup(m.states, name)
    case None => None
    case Some(i) => Some(m.states[i])
  }

  /** `isState(name)`: false while nothing is current. */
  function IsState(m: Machine, name: string): (r: bool)
    ensures m.current.NoCurrent? ==> !r
    ensures r <==> CurrentName(m) == Some(name)
  {
    match CurrentState(m)
    case None => false
    case Some(s) => s.name == name
  }

  /** `getPreviousState()`: the registry state named by the second-to-last history entry. */
  function GetPreviousState(m: Machine): (r: Option<State>)
    ensures |m.history| < 2 ==> r.None?
    ensures r.Some? ==> r.value.name == m.history[|m.history| - 2] && r.value in m.states
    ensures |m.history| >= 2 ==>
              (r.None? <==> forall j :: 0 <= j < |m.states| ==> m.states[j].name != m.history[|m.history| - 2])
  {
    if |m.history| >= 2 then GetState(m, m.history[|m.history| - 2]) else None
  }

  /** `getPossibleStates()`: the current state's list, which is what the guard of
      `goToState` consults for registered names. The source fails when nothing is current. */
  function GetPossibleStates(m: Machine): (r: seq<string>)
    requires !m.current.NoCurrent?
    ensures Some(r) == CurrentState(m).value.possibleStates
    ensures forall name :: Lookup(m.states, name).Some? ==> (MayEnter(m, name) <==> name in r)
  {
    Possibles(m)
  }

  /** `getImpossibleStates()`: the names of `allStateNames` the current state may not go
      to, in `allStateNames` order; the source fails when nothing is current. */
  function GetImpossibleStates(m: Machine): (r: seq<string>)
    requires !m.current.NoCurrent?
    ensures forall x :: x in r <==> x in m.allStateNames.value && x !in GetPossibleStates(m)
    ensures |r| <= |m.allStateNames.value|
  {
    Without(m.allStateNames.value, Possibles(m))
  }

  // ---------------------------------------------------------------------------
  // Subscriptions

  /** The first argument of `subscribeToState`: one name or a list of names. */
  datatype Pattern = One(name: string) | Many(names: seq<string>)

  function AsList(p: Pattern): seq<string> {
    match p
    case One(n) => [n]
    case Many(ns) => ns
  }

  /** A list whose first element is the wildcard stands for `allStateNames`. */
  function Resolve(m: Machine, names: seq<string>): Option<seq<string>> {
    if |names| > 0 && names[0] == Wildcard then m.allStateNames else Some(names)
  }

  /** `b` differs from `a` only by subscribers appended to registry states. */
  predicate OnlySubscribersGrow(a: Machine, b: Machine) {
    && |b.states| == |a.states|
    && (forall j :: 0 <= j < |a.states| ==>
          && b.states[j] == a.states[j].(subscribers := b.states[j].subscribers)
          && a.states[j].subscribers <= b.states[j].subscribers)
    && b.(states := a.states) == a
  }

  /** Whether the live subscription loop accepts `name`: a registered name and a function callback. */
  predicate Attachable(states: seq<State>, name: string, cb: Value) {
    Lookup(states, name).Some? && cb.Fn?
  }

  /** One accepted name: `cb` appended to the first state of that name. */
  function Push(m: Machine, name: string, cb: Value): (r: Machine)
    requires Attachable(m.states, name, cb)
    ensures SameNames(m.states, r.states)
    ensures OnlySubscribersGrow(m, r)
    ensures forall j :: 0 <= j < |m.states| ==>
              r.states[j].subscribers == m.states[j].subscribers + (if Lookup(m.states, name) == Some(j) then [cb.id] else [])
  {
    var i := Lookup(m.states, name).value;
    var s := m.states[i];
    m.(states := m.states[i := s.(subscribers := s.subscribers + [cb.id])])
  }

  /** The loop of a live `subscribeToState`: push `cb` onto each named state in turn,
      throwing at the first name that is unknown or when `cb` is not a function. */
  function AttachEach(m: Machine, names: seq<string>, cb: Value): (r: Outcome)
    ensures r.trace == []
    ensures OnlySubscribersGrow(m, r.machine)
    decreases |names|
  {
    if names == [] then Outcome(m, [], None)
    else if Attachable(m.states, names[0], cb) then
      AttachEach(Push(m, names[0], cb), names[1..], cb)
    else
      Outcome(m, [], Some(CannotSubscribe(names[0])))
  }

  /** How many names, from the front, the loop accepts before it throws. */
  function AttachablePrefix(states: seq<State>, names: seq<string>, cb: Value): (p: nat)
    ensures p <= |names|
    ensures forall k :: 0 <= k < p ==> Attachable(states, names[k], cb)
    ensures p < |names| ==> !Attachable(states, names[p], cb)
  {
    if names == [] || !Attachable(states, names[0], cb) then 0
    else 1 + AttachablePrefix(states, names[1..], cb)
  }

  /** How many of `names` resolve to registry position `j`. */
  function Hits(states: seq<State>, names: seq<string>, j: nat): nat {
    if names == [] then 0
    else (if Lookup(states, names[0]) == Some(j) then 1 else 0) + Hits(states, names[1..], j)
  }

  /** How many of the names the loop accepts, before the first one it rejects, resolve
      to registry position `j`. */
  function AcceptedHits(states: seq<State>, names: seq<string>, cb: Value, j: nat): nat {
    if names == [] || !Attachable(states, names[0], cb) then 0
    else (if Lookup(states, names[0]) == Some(j) then 1 else 0) + AcceptedHits(states, names[1..], cb, j)
  }

  function Repeat(x: FnId, n: nat): (r: seq<FnId>)
    ensures |r| == n && forall i :: 0 <= i < n ==> r[i] == x
  {
    if n == 0 then [] else [x] + Repeat(x, n - 1)
  }

  lemma {:induction false} AttachableSameNames(a: seq<State>, b: seq<State>, names: seq<string>, cb: Value)
    requires SameNames(a, b)
    ensures AttachablePrefix(a, names, cb) == AttachablePrefix(b, names, cb)
    ensures forall j :: AcceptedHits(a, names, cb, j) == AcceptedHits(b, names, cb, j)
  {
    if names != [] {
      LookupSameNames(a, b, names[0]);
      AttachableSameNames(a, b, names[1..], cb);
    }
  }

  /** The live subscription loop throws exactly at the first name that is unknown, or at
      the first name at all when `cb` is not a function, and then changes nothing more. */
  lemma {:induction false} AttachEachThrows(m: Machine, names: seq<string>, cb: Value)
    ensures var r := AttachEach(m, names, cb);
            var p := AttachablePrefix(m.states, names, cb);
            && (r.thrown.None? <==> p == |names|)
            && (p < |names| ==> r.thrown == Some(CannotSubscribe(names[p])))
            && (!cb.Fn? ==> r.machine == m)
    decreases |names|
  {
    var r := AttachEach(m, names, cb);
    if names == [] {
      assert r == Outcome(m, [], None) && AttachablePrefix(m.states, names, cb) == 0;
    } else if !Attachable(m.states, names[0], cb) {
      assert r.thrown == Some(CannotSubscribe(names[0])) && r.machine == m;
      assert AttachablePrefix(m.states, names, cb) == 0;
    } else {
      var next := Push(m, names[0], cb);
      AttachEachStep(m, names, cb);
      AttachEachThrows(next, names[1..], cb);
      var q := AttachablePrefix(next.states, names[1..], cb);
      assert q < |names| - 1 ==> names[1..][q] == names[q + 1];
    }
  }

  /** One accepted name: the loop goes on from the pushed machine with the other names,
      and the accepted prefix is one longer than the one that follows. */
  lemma AttachEachStep(m: Machine, names: seq<string>, cb: Value)
    requires names != [] && Attachable(m.states, names[0], cb)
    ensures var next := Push(m, names[0], cb);
            && AttachEach(m, names, cb) == AttachEach(next, names[1..], cb)
            && AttachablePrefix(m.states, names, cb) == 1 + AttachablePrefix(next.states, names[1..], cb)
            && forall j :: AcceptedHits(m.states, names[1..], cb, j) == AcceptedHits(next.states, names[1..], cb, j)
  {
    var next := Push(m, names[0], cb);
    AttachableSameNames(m.states, next.states, names[1..], cb);
  }

  /** The accepted mentions are exactly those in the prefix before the first rejected name. */
  lemma {:induction false} AcceptedHitsPrefix(states: seq<State>, names: seq<string>, cb: Value, j: nat)
    ensures AcceptedHits(states, names, cb, j) == Hits(states, names[..AttachablePrefix(states, names, cb)], j)
  {
    var p := AttachablePrefix(states, names, cb);
    if names == [] || !Attachable(states, names[0], cb) {
      assert names[..p] == [];
    } else {
      AcceptedHitsPrefix(states, names[1..], cb, j);
      assert names[..p][0] == names[0];
      assert names[..p][1..] == names[1..][..p - 1];
    }
  }

  /** By the time the live subscription loop stops, every accepted name's state has had
      `cb` appended once per mention, in order; no other state changes. */
  lemma {:induction false} AttachEachAppends(m: Machine, names: seq<string>, cb: Value)
    requires cb.Fn?
    ensures forall j :: 0 <= j < |m.states| ==>
              AttachEach(m, names, cb).machine.states[j].subscribers
                == m.states[j].subscribers + Repeat(cb.id, AcceptedHits(m.states, names, cb, j))
    decreases |names|
  {
    var r := AttachEach(m, names, cb);
    if names == [] {
      assert r == Outcome(m, [], None);
    } else if !Attachable(m.states, names[0], cb) {
      assert r.machine == m;
    } else {
      var i := Lookup(m.states, names[0]).value;
      var next := Push(m, names[0], cb);
      AttachEachStep(m, names, cb);
      AttachEachAppends(next, names[1..], cb);
      forall j | 0 <= j < |m.states|
        ensures r.machine.states[j].subscribers == m.states[j].subscribers + Repeat(cb.id, AcceptedHits(m.states, names, cb, j))
      {
        AppendOnce(m.states[j].subscribers, next.states[j].subscribers, r.machine.states[j].subscribers,
                   cb.id, AcceptedHits(m.states, names[1..], cb, j), i == j);
      }
    }
  }

  lemma AppendOnce(before: seq<FnId>, mid: seq<FnId>, after: seq<FnId>, x: FnId, h: nat, hit: bool)
    requires mid == before + (if hit then [x] else [])
    requires after == mid + Repeat(x, h)
    ensures after == before + Repeat(x, (if hit then 1 else 0) + h)
  {
    if hit {
      assert Repeat(x, 1 + h) == [x] + Repeat(x, h);
    }
  }

  /** A live `subscribeToState(names, cb)` on a started machine. */
  function Attach(m: Machine, names: seq<string>, cb: Value): (r: Outcome)
    ensures r.trace == []
    ensures OnlySubscribersGrow(m, r.machine)
    ensures Resolve(m, names).None? ==> r == Outcome(m, [], Some(NoStateNames))
  {
    match Resolve(m, names)
    case None => Outcome(m, [], Some(NoStateNames))
    case Some(targets) => AttachEach(m, targets, cb)
  }

  /** `subscribeToState(pattern, cb)`: queued verbatim before `start`, attached at once after. */
  function Subscribe(m: Machine, pattern: Pattern, cb: Value): (r: Outcome)
    ensures r.trace == []
    ensures !m.initialized ==>
              && r.thrown.None?
              && r.machine == m.(subscribeQueue := m.subscribeQueue + [Subscription(AsList(pattern), cb)])
    ensures m.initialized ==> OnlySubscribersGrow(m, r.machine)
  {
    var names := AsList(pattern);
    if !m.initialized then
      Outcome(m.(subscribeQueue := m.subscribeQueue + [Subscription(names, cb)]), [], None)
    else
      Attach(m, names, cb)
  }

  // ---------------------------------------------------------------------------
  // Start

  /** Replaying the queue in `start`: each queued subscription, in order, as a live one;
      the first error stops the replay. */
  function Replay(m: Machine, queue: seq<Subscription>): (r: Outcome)
    ensures r.trace == []
    ensures OnlySubscribersGrow(m, r.machine)
    decreases |queue|
  {
    if queue == [] then Outcome(m, [], None)
    else
      var a := Attach(m, queue[0].names, queue[0].cb);
      if a.thrown.Some? then a else Replay(a.machine, queue[1..])
  }

  /** The names of the states flagged initial, from position `from` on, in registry order. */
  function InitialNames(states: seq<State>, from: nat): seq<string>
    requires from <= |states|
    decreases |states| - from
  {
    if from == |states| then []
    else (if Truthy(states[from].initial) then [states[from].name] else []) + InitialNames(states, from + 1)
  }

  /** The last state flagged initial, from position `from` on. */
  function LastInitial(states: seq<State>, from: nat): (r: Option<nat>)
    requires from <= |states|
    ensures r.Some? ==> from <= r.value < |states| && Truthy(states[r.value].initial)
    ensures r.Some? ==> forall j :: r.value < j < |states| ==> !Truthy(states[j].initial)
    ensures r.None? <==> forall j :: from <= j < |states| ==> !Truthy(states[j].initial)
    decreases |states| - from
  {
    if from == |states| then None
    else match LastInitial(states, from + 1)
      case Some(k) => Some(k)
      case None => if Truthy(states[from].initial) then Some(from) else None
  }

  /** Two registries that agree on every state's name, `initial` flag and `possibleStates`. */
  predicate SameSkeleton(a: seq<State>, b: seq<State>) {
    |a| == |b| && forall j :: 0 <= j < |a| ==>
      a[j].name == b[j].name && a[j].initial == b[j].initial && a[j].possibleStates == b[j].possibleStates
  }

  lemma {:induction false} SkeletonInitials(a: seq<State>, b: seq<State>, from: nat)
    requires SameSkeleton(a, b) && from <= |a|
    ensures InitialNames(a, from) == InitialNames(b, from)
    ensures LastInitial(a, from) == LastInitial(b, from)
    decreases |a| - from
  {
    if from < |a| {
      SkeletonInitials(a, b, from + 1);
    }
  }

  /** The activation loop of `start`: a transition, without parameters, to every state
      flagged initial from position `from` on, in registry order. */
  function ActivateInitials(m: Machine, from: nat): (r: Outcome)
    requires from <= |m.states|
    ensures r.thrown.None?
    ensures |r.machine.states| == |m.states|
    ensures (r.machine.allStateNames, r.machine.initialized, r.machine.subscribeQueue)
         == (m.allStateNames, m.initialized, m.subscribeQueue)
    decreases |m.states| - from
  {
    if from == |m.states| then Outcome(m, [], None)
    else if Truthy(m.states[from].initial) then
      var t := Transition(m, from, Undefined);
      var rest := ActivateInitials(t.machine, from + 1);
      Outcome(rest.machine, t.trace + rest.trace, None)
    else
      ActivateInitials(m, from + 1)
  }

  lemma TransitionSkeleton(m: Machine, t: nat, params: Value)
    requires t < |m.states|
    ensures SameSkeleton(m.states, Transition(m, t, params).machine.states)
  {
  }

  /** The activation loop changes no state's name, `initial` flag or `possibleStates`. */
  lemma {:induction false} ActivateInitialsSkeleton(m: Machine, from: nat)
    requires from <= |m.states|
    ensures SameSkeleton(m.states, ActivateInitials(m, from).machine.states)
    decreases |m.states| - from
  {
    var r := ActivateInitials(m, from);
    if from == |m.states| {
      assert r.machine == m;
    } else if Truthy(m.states[from].initial) {
      var t := Transition(m, from, Undefined).machine;
      assert r.machine == ActivateInitials(t, from + 1).machine;
      TransitionSkeleton(m, from, Undefined);
      ActivateInitialsSkeleton(t, from + 1);
    } else {
      assert r == ActivateInitials(m, from + 1);
      ActivateInitialsSkeleton(m, from + 1);
    }
  }

  /** The activation loop appends the initial states' names to the history, in registry order. */
  lemma {:induction false} ActivateInitialsHistory(m: Machine, from: nat)
    requires from <= |m.states|
    ensures ActivateInitials(m, from).machine.history == m.history + InitialNames(m.states, from)
    decreases |m.states| - from
  {
    var r := ActivateInitials(m, from);
    if from == |m.states| {
      assert r.machine == m && InitialNames(m.states, from) == [];
    } else if Truthy(m.states[from].initial) {
      var t := Transition(m, from, Undefined).machine;
      var tail := InitialNames(m.states, from + 1);
      assert r.machine == ActivateInitials(t, from + 1).machine;
      TransitionSkeleton(m, from, Undefined);
      SkeletonInitials(m.states, t.states, from + 1);
      ActivateInitialsHistory(t, from + 1);
      assert InitialNames(m.states, from) == [m.states[from].name] + tail;
      assert r.machine.history == (m.history + [m.states[from].name]) + tail;
    } else {
      assert r == ActivateInitials(m, from + 1);
      assert InitialNames(m.states, from) == InitialNames(m.states, from + 1);
      ActivateInitialsHistory(m, from + 1);
    }
  }

  /** The activation loop leaves the last initial state current, or the current state
      as it was when no state from position `from` on is flagged initial. */
  lemma {:induction false} ActivateInitialsCurrent(m: Machine, from: nat)
    requires from <= |m.states|
    ensures ActivateInitials(m, from).machine.current
         == (if LastInitial(m.states, from).Some? then At(LastInitial(m.states, from).value) else m.current)
    decreases |m.states| - from
  {
    var r := ActivateInitials(m, from);
    if from == |m.states| {
      assert r.machine == m && LastInitial(m.states, from).None?;
    } else if Truthy(m.states[from].initial) {
      var t := Transition(m, from, Undefined).machine;
      assert r.machine == ActivateInitials(t, from + 1).machine;
      assert t.current == At(from);
      TransitionSkeleton(m, from, Undefined);
      SkeletonInitials(m.states, t.states, from + 1);
      ActivateInitialsCurrent(t, from + 1);
    } else {
      assert r == ActivateInitials(m, from + 1);
      assert LastInitial(m.states, from) == LastInitial(m.states, from + 1);
      ActivateInitialsCurrent(m, from + 1);
    }
  }

  /** With no initial state from position `from` on, the activation loop changes
      nothing and invokes no callback. */
  lemma {:induction false} ActivateInitialsIdle(m: Machine, from: nat)
    requires from <= |m.states|
    requires LastInitial(m.states, from).None?
    ensures ActivateInitials(m, from) == Outcome(m, [], None)
    decreases |m.states| - from
  {
    if from < |m.states| {
      assert !Truthy(m.states[from].initial) && LastInitial(m.states, from + 1).None?;
      ActivateInitialsIdle(m, from + 1);
    }
  }

  /** The activation loop skips the states not flagged initial and makes its first
      transition to the first one that is, `k`: its calls start with that transition's
      `onLeave`, `onEnter` and subscriber calls, and the rest of the loop goes on from
      the machine that transition leaves. */
  lemma {:induction false} ActivateInitialsEntersFirst(m: Machine, from: nat, k: nat)
    requires from <= k < |m.states| && Truthy(m.states[k].initial)
    requires forall j :: from <= j < k ==> !Truthy(m.states[j].initial)
    ensures var t := Transition(m, k, Undefined).machine;
            var rest := ActivateInitials(t, k + 1);
            && ActivateInitials(m, from).machine == rest.machine
            && ActivateInitials(m, from).trace
               == LeaveEvents(m) + EnterEvents(m.states[k], After(m, k), Undefined)
                  + NotifyEvents(m.states[k], After(m, k)) + rest.trace
    decreases k - from
  {
    if from < k {
      assert ActivateInitials(m, from) == ActivateInitials(m, from + 1);
      ActivateInitialsEntersFirst(m, from + 1, k);
    } else {
      var t := Transition(m, k, Undefined);
      var rest := ActivateInitials(t.machine, k + 1);
      assert ActivateInitials(m, from) == Outcome(rest.machine, t.trace + rest.trace, None);
      TransitionTrace(m, k, Undefined);
    }
  }

  /** The activation loop visits each initial state from position `from` on exactly once
      and touches no subscriber list. */
  lemma {:induction false} ActivateInitialsVisits(m: Machine, from: nat)
    requires from <= |m.states|
    ensures var r := ActivateInitials(m, from);
            forall j :: 0 <= j < |m.states| ==>
              && r.machine.states[j].visitedCount
                 == m.states[j].visitedCount + (if from <= j && Truthy(m.states[j].initial) then 1 else 0)
              && r.machine.states[j].subscribers == m.states[j].subscribers
              && r.machine.states[j].initial == m.states[j].initial
    decreases |m.states| - from
  {
    var r := ActivateInitials(m, from);
    if from == |m.states| {
      assert r.machine == m;
    } else if Truthy(m.states[from].initial) {
      var t := Transition(m, from, Undefined).machine;
      var rest := ActivateInitials(t, from + 1).machine;
      assert r.machine == rest;
      TransitionStates(m, from, Undefined);
      ActivateInitialsVisits(t, from + 1);
      forall j | 0 <= j < |m.states|
        ensures rest.states[j].visitedCount
                == m.states[j].visitedCount + (if from <= j && Truthy(m.states[j].initial) then 1 else 0)
        ensures rest.states[j].subscribers == m.states[j].subscribers
        ensures rest.states[j].initial == m.states[j].initial
      {
        assert t.states[j].visitedCount == m.states[j].visitedCount + (if j == from then 1 else 0);
        assert t.states[j].subscribers == m.states[j].subscribers && t.states[j].initial == m.states[j].initial;
        assert rest.states[j].visitedCount
               == t.states[j].visitedCount + (if from + 1 <= j && Truthy(t.states[j].initial) then 1 else 0);
      }
    } else {
      assert r == ActivateInitials(m, from + 1);
      ActivateInitialsVisits(m, from + 1);
    }
  }

  /** `start()`: mark the machine initialized, replay the queued subscriptions (the queue
      itself is kept), then activate every state flagged initial. An error thrown by the
      replay leaves the remaining subscriptions and all activations undone. */
  function Start(m: Machine): (r: Outcome)
    ensures r.machine.initialized && r.machine.subscribeQueue == m.subscribeQueue
    ensures |r.machine.states| == |m.states| && r.machine.allStateNames == m.allStateNames
    ensures r.thrown.Some? ==> r.trace == [] && r.machine.history == m.history && r.machine.current == m.current
    ensures m.subscribeQueue == [] ==> r.thrown.None?
  {
    var replayed := Replay(m.(initialized := true), m.subscribeQueue);
    if replayed.thrown.Some? then replayed
    else ActivateInitials(replayed.machine, 0)
  }

  /** The activation loop on a machine that has entered no state yet, with one state
      flagged initial: it makes exactly the calls of entering that state. */
  lemma ActivateSoleInitial(m: Machine, i: nat)
    requires m.current.NoCurrent? && i < |m.states| && Truthy(m.states[i].initial)
    requires forall j :: 0 <= j < |m.states| && j != i ==> !Truthy(m.states[j].initial)
    ensures ActivateInitials(m, 0).trace
         == EnterEvents(m.states[i], After(m, i), Undefined) + NotifyEvents(m.states[i], After(m, i))
  {
    assert LeaveEvents(m) == [];
    ActivateInitialsEntersFirst(m, 0, i);
    var t := Transition(m, i, Undefined).machine;
    TransitionSkeleton(m, i, Undefined);
    assert LastInitial(t.states, i + 1).None?;
    ActivateInitialsIdle(t, i + 1);
    var e := EnterEvents(m.states[i], After(m, i), Undefined);
    var n := NotifyEvents(m.states[i], After(m, i));
    assert [] + e + n + [] == e + n;
  }

  /** On a machine that has entered no state yet and has one state flagged initial, a
      `start` whose replay succeeds makes exactly the calls of entering that state:
      its `onEnter`, then every subscriber its list holds once the queue is replayed,
      queued ones included, each once and in list order. */
  lemma StartEntersSoleInitial(m: Machine, i: nat)
    requires m.current.NoCurrent? && i < |m.states| && Truthy(m.states[i].initial)
    requires forall j :: 0 <= j < |m.states| && j != i ==> !Truthy(m.states[j].initial)
    requires Start(m).thrown.None?
    ensures var p := Replay(m.(initialized := true), m.subscribeQueue).machine;
            Start(m).trace == EnterEvents(p.states[i], After(p, i), Undefined) + NotifyEvents(p.states[i], After(p, i))
  {
    var p := Replay(m.(initialized := true), m.subscribeQueue).machine;
    assert Start(m) == ActivateInitials(p, 0);
    assert forall j :: 0 <= j < |p.states| ==> p.states[j].initial == m.states[j].initial;
    ActivateSoleInitial(p, i);
  }

  /** A `start` whose replay succeeds appends one history entry per initial state, in
      registry order, leaves the last initial state current, and visits each initial
      state once. */
  lemma StartActivatesInitials(m: Machine)
    requires Start(m).thrown.None?
    ensures var r := Start(m).machine;
            && SameSkeleton(m.states, r.states)
            && r.history == m.history + InitialNames(m.states, 0)
            && (LastInitial(m.states, 0).Some? ==> r.current == At(LastInitial(m.states, 0).value))
            && (LastInitial(m.states, 0).None? ==> r.current == m.current)
            && forall j :: 0 <= j < |m.states| ==>
                 r.states[j].visitedCount == m.states[j].visitedCount + (if Truthy(m.states[j].initial) then 1 else 0)
  {
    var replayed := Replay(m.(initialized := true), m.subscribeQueue);
    assert SameSkeleton(m.states, replayed.machine.states);
    SkeletonInitials(m.states, replayed.machine.states, 0);
    ActivateInitialsSkeleton(replayed.machine, 0);
    ActivateInitialsHistory(replayed.machine, 0);
    ActivateInitialsCurrent(replayed.machine, 0);
    ActivateInitialsVisits(replayed.machine, 0);
  }

  // ---------------------------------------------------------------------------
  // Decoration

  /** `decorateStates(name, fn)`: set `name` as an own property of every state now in the
      registry; states created later do not get it. */
  function DecorateStates(m: Machine, name: string, fn: Value): (r: Machine)
    ensures |r.states| == |m.states| && r.(states := m.states) == m
    ensures name !in StateKeys && fn != Undefined ==>
              forall j, proto :: 0 <= j < |m.states| ==> Get(r.states[j], proto, name) == fn
    ensures forall j, proto, key :: 0 <= j < |m.states| && key != name ==>
              Get(r.states[j], proto, key) == Get(m.states[j], proto, key)
    ensures forall j :: 0 <= j < |m.states| ==> r.states[j].(extra := m.states[j].extra) == m.states[j]
  {
    m.(states := seq(|m.states|, j requires 0 <= j < |m.states| => m.states[j].(extra := m.states[j].extra[name := fn])))
  }
}

=== FILE: properties.dfy ===
/** Properties of whole runs of the engine: each history entry is one counted visit,
    at most one registry state is active once the machine is started, `nextState`
    cycles through the registry, `getPreviousState` names the state just left, and a
    subscription made before `start` ends up where a live one would. */
module EngineProperties {
  import opened Values
  import opened StateEntity
  import opened Registry
  import opened Engine

  // ---------------------------------------------------------------------------
  // Runs

  /** A call a client can make on a machine whose registry is fixed. */
  datatype Op =
    | Go(name: string, params: Value)
    | Next(params: Value)
    | Sub(pattern: Pattern, cb: Value)
    | Begin
    | Decorate(key: string, fn: Value)

  /** The calls whose effect the model states: every `decorateStates` goes to a key the
      engine neither reads nor calls (overwriting `active` or `activate` is not modelled). */
  predicate Modelled(op: Op) {
    op.Decorate? ==> op.key !in StateKeys && op.key !in StateMethods
  }

  /** `nextState` is only defined on a non-empty registry, and every call is modelled. */
  predicate Runnable(m: Machine, ops: seq<Op>) {
    && (|m.states| > 0 || forall i :: 0 <= i < |ops| ==> !ops[i].Next?)
    && forall i :: 0 <= i < |ops| ==> Modelled(ops[i])
  }

  /** One call. No call here replaces the registry, so every state keeps its name. */
  function Step(m: Machine, op: Op): (r: Outcome)
    requires op.Next? ==> |m.states| > 0
    ensures |r.machine.states| == |m.states|
  {
    match op
    case Go(name, params) => GoToState(m, name, params)
    case Next(params) => NextState(m, params)
    case Sub(pattern, cb) => Subscribe(m, pattern, cb)
    case Begin => Start(m)
    case Decorate(key, fn) => Outcome(DecorateStates(m, key, fn), [], None)
  }

  /** A sequence of calls; a thrown error ends the run. */
  function Run(m: Machine, ops: seq<Op>): (r: Outcome)
    requires Runnable(m, ops)
    ensures |r.machine.states| == |m.states|
    decreases |ops|
  {
    if ops == [] then Outcome(m, [], None)
    else
      var s := Step(m, ops[0]);
      if s.thrown.Some? then s
      else
        var rest := Run(s.machine, ops[1..]);
        Outcome(rest.machine, s.trace + rest.trace, rest.thrown)
  }

  // ---------------------------------------------------------------------------
  // History against visit counters

  /** The sum of the registry's visit counters. */
  function Total(states: seq<State>): nat {
    if states == [] then 0 else states[0].visitedCount + Total(states[1..])
  }

  /** The number of history entries naming `name`. */
  function Count(h: seq<string>, name: string): (r: nat)
    ensures r <= |h|
  {
    if h == [] then 0 else Count(h[..|h| - 1], name) + (if h[|h| - 1] == name then 1 else 0)
  }

  /** From `a` to `b` the history grew by exactly as many entries as the registry's
      counters grew in total. */
  predicate Balanced(a: Machine, b: Machine) {
    |a.history| <= |b.history| && Total(b.states) + |a.history| == Total(a.states) + |b.history|
  }

  /** Every registry state's counter equals the number of history entries naming it. */
  predicate VisitsMatchHistory(m: Machine) {
    forall j :: 0 <= j < |m.states| ==> m.states[j].visitedCount == Count(m.history, m.states[j].name)
  }

  predicate UniqueNames(states: seq<State>) {
    forall i, j :: 0 <= i < j < |states| ==> states[i].name != states[j].name
  }

  lemma {:induction false} TotalSame(a: seq<State>, b: seq<State>)
    requires |a| == |b| && forall j :: 0 <= j < |a| ==> a[j].visitedCount == b[j].visitedCount
    ensures Total(a) == Total(b)
  {
    if a != [] {
      TotalSame(a[1..], b[1..]);
    }
  }

  /** One counter up by one, the others unchanged: the total is up by one. */
  lemma {:induction false} TotalBump(a: seq<State>, b: seq<State>, t: nat)
    requires |a| == |b| && t < |a|
    requires b[t].visitedCount == a[t].visitedCount + 1
    requires forall j :: 0 <= j < |a| && j != t ==> b[j].visitedCount == a[j].visitedCount
    ensures Total(b) == Total(a) + 1
  {
    if t == 0 {
      TotalSame(a[1..], b[1..]);
    } else {
      TotalBump(a[1..], b[1..], t - 1);
    }
  }

  lemma CountAppend(h: seq<string>, x: string, name: string)
    ensures Count(h + [x], name) == Count(h, name) + (if x == name then 1 else 0)
  {
    assert (h + [x])[..|h|] == h;
  }

  lemma TransitionBalanced(m: Machine, t: nat, params: Value)
    requires t < |m.states|
    ensures Balanced(m, Transition(m, t, params).machine)
  {
    TotalBump(m.states, Transition(m, t, params).machine.states, t);
  }

  lemma GrowBalanced(a: Machine, b: Machine)
    requires OnlySubscribersGrow(a, b)
    ensures Balanced(a, b) && VisitsMatchHistory(a) == VisitsMatchHistory(b)
  {
    TotalSame(a.states, b.states);
  }

  /** A transition counts one visit of its target under the target's name, so with
      distinct names each counter keeps matching the history. */
  lemma TransitionKeepsVisits(m: Machine, t: nat, params: Value)
    requires t < |m.states| && UniqueNames(m.states) && VisitsMatchHistory(m)
    ensures VisitsMatchHistory(Transition(m, t, params).machine)
  {
    var r := Transition(m, t, params).machine;
    forall j | 0 <= j < |r.states|
      ensures r.states[j].visitedCount == Count(r.history, r.states[j].name)
    {
      CountAppend(m.history, m.states[t].name, m.states[j].name);
    }
  }

  lemma {:induction false} ActivateInitialsBalanced(m: Machine, from: nat)
    requires from <= |m.states|
    ensures Balanced(m, ActivateInitials(m, from).machine)
    ensures UniqueNames(m.states) && VisitsMatchHistory(m) ==> VisitsMatchHistory(ActivateInitials(m, from).machine)
    decreases |m.states| - from
  {
    var r := ActivateInitials(m, from);
    if from == |m.states| {
      assert r.machine == m;
    } else if Truthy(m.states[from].initial) {
      var t := Transition(m, from, Undefined).machine;
      assert r.machine == ActivateInitials(t, from + 1).machine;
      TransitionBalancedAll(m, from, Undefined);
      if UniqueNames(m.states) {
        UniqueSameNames(m.states, t.states);
      }
      ActivateInitialsBalanced(t, from + 1);
    } else {
      assert r == ActivateInitials(m, from + 1);
      ActivateInitialsBalanced(m, from + 1);
    }
  }

  lemma StartBalanced(m: Machine)
    ensures Balanced(m, Start(m).machine)
    ensures SameNames(m.states, Start(m).machine.states)
    ensures UniqueNames(m.states) && VisitsMatchHistory(m) ==> VisitsMatchHistory(Start(m).machine)
  {
    var m0 := m.(initialized := true);
    var replayed := Replay(m0, m.subscribeQueue);
    TotalSame(m.states, m0.states);
    GrowBalanced(m0, replayed.machine);
    if replayed.thrown.None? {
      ActivateInitialsBalanced(replayed.machine, 0);
      ActivateInitialsSkeleton(replayed.machine, 0);
    }
  }

  lemma UniqueSameNames(a: seq<State>, b: seq<State>)
    requires SameNames(a, b) && UniqueNames(a)
    ensures UniqueNames(b)
  {
  }

  /** A transition keeps the registry's names, and with distinct names keeps each
      counter equal to its name's history entries. */
  lemma TransitionBalancedAll(m: Machine, t: nat, params: Value)
    requires t < |m.states|
    ensures Balanced(m, Transition(m, t, params).machine)
    ensures SameNames(m.states, Transition(m, t, params).machine.states)
    ensures UniqueNames(m.states) && VisitsMatchHistory(m) ==> VisitsMatchHistory(Transition(m, t, params).machine)
  {
    TransitionBalanced(m, t, params);
    if UniqueNames(m.states) && VisitsMatchHistory(m) {
      TransitionKeepsVisits(m, t, params);
    }
  }

  /** A subscription, queued or live, touches neither the history nor the counters. */
  lemma SubscribeBalanced(m: Machine, pattern: Pattern, cb: Value)
    ensures Balanced(m, Subscribe(m, pattern, cb).machine)
    ensures SameNames(m.states, Subscribe(m, pattern, cb).machine.states)
    ensures VisitsMatchHistory(m) ==> VisitsMatchHistory(Subscribe(m, pattern, cb).machine)
  {
    var r := Subscribe(m, pattern, cb).machine;
    if m.initialized {
      GrowBalanced(m, r);
    } else {
      assert r.states == m.states;
    }
  }

  /** Every call keeps the history growing in step with the visit counters, and with
      distinct state names keeps each counter equal to its name's history entries. */
  lemma StepBalanced(m: Machine, op: Op)
    requires op.Next? ==> |m.states| > 0
    requires Modelled(op)
    ensures Balanced(m, Step(m, op).machine)
    ensures SameNames(m.states, Step(m, op).machine.states)
    ensures UniqueNames(m.states) && VisitsMatchHistory(m) ==> VisitsMatchHistory(Step(m, op).machine)
  {
    match op
    case Go(name, params) =>
      if MayEnter(m, name) {
        TransitionBalancedAll(m, Lookup(m.states, name).value, params);
      }
    case Next(params) =>
      TransitionBalancedAll(m, Successor(m), params);
    case Sub(pattern, cb) =>
      SubscribeBalanced(m, pattern, cb);
    case Begin =>
      StartBalanced(m);
    case Decorate(key, fn) =>
      TotalSame(m.states, Step(m, op).machine.states);
  }

  lemma {:induction false} RunBalanced(m: Machine, ops: seq<Op>)
    requires Runnable(m, ops)
    ensures Balanced(m, Run(m, ops).machine)
    ensures UniqueNames(m.states) && VisitsMatchHistory(m) ==> VisitsMatchHistory(Run(m, ops).machine)
    decreases |ops|
  {
    if ops != [] {
      var s := Step(m, ops[0]);
      StepBalanced(m, ops[0]);
      if s.thrown.None? {
        if UniqueNames(m.states) {
          UniqueSameNames(m.states, s.machine.states);
        }
        RunBalanced(s.machine, ops[1..]);
      }
    }
  }

  // ---------------------------------------------------------------------------
  // At most one active state

  /** Only the current state can be active. */
  predicate ActiveIsCurrent(m: Machine) {
    forall j :: 0 <= j < |m.states| && m.states[j].active ==> m.current == At(j)
  }

  /** A machine as construction leaves it: nothing current yet, and exactly the states
      flagged initial active. */
  predicate Pristine(m: Machine) {
    m.current.NoCurrent? && forall j :: 0 <= j < |m.states| ==> (m.states[j].active <==> Truthy(m.states[j].initial))
  }

  /** The invariant of the activation loop in `start`: an active state is either the
      current one or an initial state the loop has not reached. */
  predicate LoopActive(m: Machine, from: nat) {
    forall j :: 0 <= j < |m.states| && m.states[j].active ==>
      m.current == At(j) || (from <= j && Truthy(m.states[j].initial))
  }

  /** "Only the current state is active" means at most one state is active. */
  lemma OnlyCurrentActive(m: Machine)
    requires ActiveIsCurrent(m)
    ensures forall i, j :: 0 <= i < |m.states| && 0 <= j < |m.states| && m.states[i].active && m.states[j].active ==> i == j
  {
  }

  lemma {:induction false} ActivateInitialsOneActive(m: Machine, from: nat)
    requires from <= |m.states| && LoopActive(m, from)
    ensures ActiveIsCurrent(ActivateInitials(m, from).machine)
    decreases |m.states| - from
  {
    var r := ActivateInitials(m, from);
    if from == |m.states| {
      assert r.machine == m;
    } else if Truthy(m.states[from].initial) {
      var t := Transition(m, from, Undefined).machine;
      assert r.machine == ActivateInitials(t, from + 1).machine;
      TransitionLoopActive(m, from);
      ActivateInitialsOneActive(t, from + 1);
    } else {
      assert r == ActivateInitials(m, from + 1);
      ActivateInitialsOneActive(m, from + 1);
    }
  }

  /** One step of the activation loop keeps its invariant: the entered state is the
      current one, and the state left is no longer active. */
  lemma TransitionLoopActive(m: Machine, from: nat)
    requires from < |m.states| && LoopActive(m, from) && Truthy(m.states[from].initial)
    ensures LoopActive(Transition(m, from, Undefined).machine, from + 1)
  {
    var t := Transition(m, from, Undefined).machine;
    TransitionStates(m, from, Undefined);
    forall j | 0 <= j < |t.states| && t.states[j].active
      ensures t.current == At(j) || (from + 1 <= j && Truthy(t.states[j].initial))
    {
      if j != from {
        assert m.states[j].active && m.current != At(j);
      }
    }
  }

  /** `start` on a freshly built machine leaves at most the last initial state active,
      however many states were flagged initial. */
  lemma StartOneActive(m: Machine)
    requires Pristine(m) && Start(m).thrown.None?
    ensures ActiveIsCurrent(Start(m).machine)
  {
    var replayed := Replay(m.(initialized := true), m.subscribeQueue);
    assert LoopActive(replayed.machine, 0);
    ActivateInitialsOneActive(replayed.machine, 0);
  }

  lemma StartKeepsOneActive(m: Machine)
    requires ActiveIsCurrent(m)
    ensures ActiveIsCurrent(Start(m).machine)
  {
    var replayed := Replay(m.(initialized := true), m.subscribeQueue);
    if replayed.thrown.None? {
      assert LoopActive(replayed.machine, 0);
      ActivateInitialsOneActive(replayed.machine, 0);
    }
  }

  lemma StepKeepsOneActive(m: Machine, op: Op)
    requires op.Next? ==> |m.states| > 0
    requires Modelled(op)
    requires ActiveIsCurrent(m)
    ensures ActiveIsCurrent(Step(m, op).machine)
  {
    if op.Begin? {
      StartKeepsOneActive(m);
    }
  }

  lemma {:induction false} RunKeepsOneActive(m: Machine, ops: seq<Op>)
    requires Runnable(m, ops) && ActiveIsCurrent(m)
    ensures ActiveIsCurrent(Run(m, ops).machine)
    decreases |ops|
  {
    if ops != [] {
      var s := Step(m, ops[0]);
      StepKeepsOneActive(m, ops[0]);
      if s.thrown.None? {
        StepBalanced(m, ops[0]);
        RunKeepsOneActive(s.machine, ops[1..]);
      }
    }
  }

  /** A machine built from descriptors has visited nothing, and is pristine. */
  lemma FreshMachine(ds: seq<Descriptor>)
    ensures var m := New(Some(ds));
            Pristine(m) && Total(m.states) == 0 && VisitsMatchHistory(m)
  {
    var m := New(Some(ds));
    ZeroTotal(m.states);
  }

  lemma {:induction false} ZeroTotal(states: seq<State>)
    requires forall j :: 0 <= j < |states| ==> states[j].visitedCount == 0
    ensures Total(states) == 0
  {
    if states != [] {
      ZeroTotal(states[1..]);
    }
  }

  /** Whatever a client does after building a machine from descriptors and starting
      it: the history holds exactly one entry per counted visit, at most one state is
      active and it is the current one, and when the names are distinct each state's
      counter equals the number of history entries naming it; the last history entry
      names the current state whenever that is a registry state. */
  lemma Lifetime(ds: seq<Descriptor>, ops: seq<Op>)
    requires |ds| > 0 || forall i :: 0 <= i < |ops| ==> !ops[i].Next?
    requires forall i :: 0 <= i < |ops| ==> Modelled(ops[i])
    ensures var started := Start(New(Some(ds))).machine;
            var r := Run(started, ops).machine;
            && |r.history| == Total(r.states)
            && ActiveIsCurrent(r)
            && (forall i, j :: 0 <= i < |r.states| && 0 <= j < |r.states| && r.states[i].active && r.states[j].active ==> i == j)
            && (UniqueNames(started.states) ==> VisitsMatchHistory(r))
            && LastIsCurrent(r)
  {
    var m := New(Some(ds));
    FreshMachine(ds);
    StartBalanced(m);
    StartOneActive(m);
    var started := Start(m).machine;
    assert m.history == [] && |started.states| == |ds|;
    assert |started.history| == Total(started.states);
    assert Runnable(started, ops);
    var r := Run(started, ops).machine;
    RunBalanced(started, ops);
    assert |r.history| == Total(r.states);
    RunKeepsOneActive(started, ops);
    OnlyCurrentActive(r);
    StartKeepsLast(m);
    RunKeepsLast(started, ops);
    if UniqueNames(started.states) {
      assert UniqueNames(m.states);
      assert VisitsMatchHistory(started);
    }
  }

  /** Calling `goToState` before `start` does not deactivate the states construction
      marked active: with an initial state 'a' and a jump to 'b', both are active. */
  lemma GoBeforeStartLeavesInitialActive()
    ensures var m := New(Some([Descriptor("a", Bool(true), None, None, None, map[]),
                               Descriptor("b", Undefined, None, None, None, map[])]));
            var r := GoToState(m, "b", Undefined).machine;
            r.states[0].active && r.states[1].active && !ActiveIsCurrent(r)
  {
    var ds := [Descriptor("a", Bool(true), None, None, None, map[]),
               Descriptor("b", Undefined, None, None, None, map[])];
    var m := New(Some(ds));
    assert m.states[0].name == "a" && m.states[1].name == "b";
    assert Lookup(m.states, "b") == Some(1);
  }

  // ---------------------------------------------------------------------------
  // nextState round the registry

  /** `k` calls of `nextState(params)` in a row. */
  function NextTimes(m: Machine, k: nat, params: Value): (r: Machine)
    requires |m.states| > 0
    ensures |r.states| == |m.states| && r.allStateNames == m.allStateNames
    ensures |r.history| == |m.history| + k
    decreases k
  {
    if k == 0 then m else NextTimes(NextState(m, params).machine, k - 1, params)
  }

  /** The position `k` calls of `nextState` lead to from position `i`, in a registry of `n` states. */
  function Ahead(i: int, k: nat, n: nat): (r: int)
    ensures i >= -1 && n > 0 && k >= 1 ==> 0 <= r < n
    decreases k
  {
    if k == 0 then i else Ahead(SuccessorIndex(i, n), k - 1, n)
  }

  lemma {:induction false} AheadAdd(i: int, a: nat, b: nat, n: nat)
    ensures Ahead(i, a + b, n) == Ahead(Ahead(i, a, n), b, n)
    decreases a
  {
    if a > 0 {
      AheadAdd(SuccessorIndex(i, n), a - 1, b, n);
    }
  }

  lemma {:induction false} AheadStraight(i: int, k: nat, n: nat)
    requires i + k < n
    ensures Ahead(i, k, n) == i + k
    decreases k
  {
    if k > 0 {
      AheadStraight(i + 1, k - 1, n);
    }
  }

  /** `n` steps round a registry of `n` states come back to the start. */
  lemma AheadCycle(i: int, n: nat)
    requires 0 <= i < n
    ensures Ahead(i, n, n) == i
  {
    AheadStraight(i, n - 1 - i, n);
    AheadAdd(i, n - 1 - i, 1, n);
    AheadAdd(i, n - i, i, n);
    AheadStraight(0, i, n);
  }

  /** After `k >= 1` calls the current state sits at the position `k` steps ahead of
      the one started from. */
  lemma {:induction false} NextTimesLands(m: Machine, k: nat, params: Value)
    requires |m.states| > 0 && k >= 1
    ensures NextTimes(m, k, params).current == At(Ahead(CurrentIndex(m), k, |m.states|))
    decreases k
  {
    if k > 1 {
      NextTimesLands(NextState(m, params).machine, k - 1, params);
    }
  }

  /** `nextState` visits every state in turn: as many calls as there are states bring
      the machine back to the state it started on. */
  lemma NextCycle(m: Machine, params: Value)
    requires |m.states| > 0 && m.current.At?
    ensures NextTimes(m, |m.states|, params).current == m.current
  {
    NextTimesLands(m, |m.states|, params);
    AheadCycle(m.current.index, |m.states|);
  }

  // ---------------------------------------------------------------------------
  // The previous state

  /** The last history entry names the current registry state. */
  predicate LastIsCurrent(m: Machine) {
    m.current.At? ==> |m.history| > 0 && m.history[|m.history| - 1] == m.states[m.current.index].name
  }

  /** A transition keeps the last history entry in step with the current state, and
      `getPreviousState` afterwards returns a state named like the one just left. */
  lemma PreviousIsLeftState(m: Machine, t: nat, params: Value)
    requires t < |m.states| && LastIsCurrent(m)
    ensures LastIsCurrent(Transition(m, t, params).machine)
    ensures m.current.At? ==>
              var p := GetPreviousState(Transition(m, t, params).machine);
              p.Some? && p.value.name == m.states[m.current.index].name
  {
    var r := Transition(m, t, params).machine;
    if m.current.At? {
      var h := |r.history|;
      assert r.history[h - 2] == m.history[|m.history| - 1];
      assert r.states[m.current.index].name == m.states[m.current.index].name;
    }
  }

  /** `setStates` breaks the link: when the name entered last is not among the new
      descriptors, the next transition leaves `getPreviousState` returning null, though
      the history holds the state just left. */
  lemma PreviousAfterSetStates(m: Machine, ds: seq<Descriptor>, t: nat, params: Value)
    requires t < |ds| && |m.history| > 0
    requires forall i :: 0 <= i < |ds| ==> ds[i].name != m.history[|m.history| - 1]
    ensures var r := Transition(SetStates(m, ds), t, params).machine;
            && r.history[|r.history| - 2] == m.history[|m.history| - 1]
            && GetPreviousState(r).None?
  {
    var s := SetStates(m, ds);
    var r := Transition(s, t, params).machine;
    assert r.history == m.history + [ds[t].name];
    forall j | 0 <= j < |r.states|
      ensures r.states[j].name != r.history[|r.history| - 2]
    {
      assert r.states[j].name == s.states[j].name == ds[j].name;
    }
  }

  /** A change that touches only subscriber lists keeps the last history entry in step. */
  lemma SubscribersKeepLast(a: Machine, b: Machine)
    requires OnlySubscribersGrow(a, b) && LastIsCurrent(a)
    ensures LastIsCurrent(b)
  {
    if b.current.At? {
      var i := b.current.index;
      assert a.current == b.current && a.history == b.history;
      assert b.states[i].name == a.states[i].name;
    }
  }

  /** The activation loop of `start` keeps the last history entry in step. */
  lemma {:induction false} ActivateInitialsKeepsLast(m: Machine, from: nat)
    requires from <= |m.states| && LastIsCurrent(m)
    ensures LastIsCurrent(ActivateInitials(m, from).machine)
    decreases |m.states| - from
  {
    var r := ActivateInitials(m, from);
    if from == |m.states| {
      assert r.machine == m;
    } else if Truthy(m.states[from].initial) {
      var t := Transition(m, from, Undefined).machine;
      assert r.machine == ActivateInitials(t, from + 1).machine;
      PreviousIsLeftState(m, from, Undefined);
      ActivateInitialsKeepsLast(t, from + 1);
    } else {
      assert r.machine == ActivateInitials(m, from + 1).machine;
      ActivateInitialsKeepsLast(m, from + 1);
    }
  }

  /** `start`, whether its replay throws or not, keeps the last history entry in step. */
  lemma StartKeepsLast(m: Machine)
    requires LastIsCurrent(m)
    ensures LastIsCurrent(Start(m).machine)
  {
    var replayed := Replay(m.(initialized := true), m.subscribeQueue);
    SubscribersKeepLast(m.(initialized := true), replayed.machine);
    if replayed.thrown.None? {
      ActivateInitialsKeepsLast(replayed.machine, 0);
    }
  }

  /** Every modelled call keeps the last history entry in step with the current state. */
  lemma StepKeepsLast(m: Machine, op: Op)
    requires op.Next? ==> |m.states| > 0
    requires Modelled(op) && LastIsCurrent(m)
    ensures LastIsCurrent(Step(m, op).machine)
  {
    match op
    case Go(name, params) =>
      if MayEnter(m, name) {
        PreviousIsLeftState(m, Lookup(m.states, name).value, params);
      }
    case Next(params) =>
      PreviousIsLeftState(m, Successor(m), params);
    case Sub(pattern, cb) =>
      if m.initialized {
        SubscribersKeepLast(m, Subscribe(m, pattern, cb).machine);
      }
    case Begin =>
      StartKeepsLast(m);
    case Decorate(key, fn) =>
      var r := DecorateStates(m, key, fn);
      if r.current.At? {
        assert r.states[r.current.index].name == m.states[r.current.index].name;
      }
  }

  lemma {:induction false} RunKeepsLast(m: Machine, ops: seq<Op>)
    requires Runnable(m, ops) && LastIsCurrent(m)
    ensures LastIsCurrent(Run(m, ops).machine)
    decreases |ops|
  {
    if ops != [] {
      var s := Step(m, ops[0]);
      StepKeepsLast(m, ops[0]);
      if s.thrown.None? {
        StepBalanced(m, ops[0]);
        RunKeepsLast(s.machine, ops[1..]);
      }
    }
  }

  // ---------------------------------------------------------------------------
  // Subscribing before or after start

  /** Two live subscriptions of the same names and callback on machines with the same
      names, name index and subscriber lists throw the same error and leave the same
      subscriber lists. */
  lemma AttachAgrees(x: Machine, y: Machine, names: seq<string>, cb: Value)
    requires SameNames(x.states, y.states) && x.allStateNames == y.allStateNames
    requires forall j :: 0 <= j < |x.states| ==> x.states[j].subscribers == y.states[j].subscribers
    ensures var ax := Attach(x, names, cb);
            var ay := Attach(y, names, cb);
            && ax.thrown == ay.thrown
            && forall j :: 0 <= j < |x.states| ==> ax.machine.states[j].subscribers == ay.machine.states[j].subscribers
  {
    if Resolve(x, names).Some? {
      AttachEachAgrees(x, y, Resolve(x, names).value, cb);
    }
  }

  lemma AttachEachAgrees(x: Machine, y: Machine, targets: seq<string>, cb: Value)
    requires SameNames(x.states, y.states)
    requires forall j :: 0 <= j < |x.states| ==> x.states[j].subscribers == y.states[j].subscribers
    ensures var ax := AttachEach(x, targets, cb);
            var ay := AttachEach(y, targets, cb);
            && ax.thrown == ay.thrown
            && forall j :: 0 <= j < |x.states| ==> ax.machine.states[j].subscribers == ay.machine.states[j].subscribers
  {
    AttachEachThrows(x, targets, cb);
    AttachEachThrows(y, targets, cb);
    AttachableSameNames(x.states, y.states, targets, cb);
    if cb.Fn? {
      AttachEachAppends(x, targets, cb);
      AttachEachAppends(y, targets, cb);
    }
  }

  /** Names that `getState` finds at consecutive positions from `off` on: each position
      in that range is hit once, every other position never. */
  lemma {:induction false} HitsAligned(states: seq<State>, names: seq<string>, off: nat, j: nat)
    requires forall k :: 0 <= k < |names| ==> Lookup(states, names[k]) == Some(off + k)
    ensures Hits(states, names, j) == (if off <= j < off + |names| then 1 else 0)
    decreases |names|
  {
    if names != [] {
      assert Lookup(states, names[0]) == Some(off);
      assert forall k :: 0 <= k < |names[1..]| ==> names[1..][k] == names[k + 1];
      HitsAligned(states, names[1..], off + 1, j);
    }
  }

  /** With distinct names, a name of the registry is found at its own position. */
  lemma LookupOwnName(states: seq<State>, k: nat)
    requires UniqueNames(states) && k < |states|
    ensures Lookup(states, states[k].name) == Some(k)
  {
  }

  /** A live subscription of a function to the registry's own names, in registry order
      and with no name repeated, throws nothing and appends the callback exactly once to
      every state. */
  lemma AttachEachAll(m: Machine, names: seq<string>, f: FnId)
    requires UniqueNames(m.states)
    requires |names| == |m.states| && forall k :: 0 <= k < |names| ==> names[k] == m.states[k].name
    ensures AttachEach(m, names, Fn(f)).thrown.None?
    ensures forall j :: 0 <= j < |m.states| ==>
              AttachEach(m, names, Fn(f)).machine.states[j].subscribers == m.states[j].subscribers + [f]
  {
    forall k | 0 <= k < |names|
      ensures Lookup(m.states, names[k]) == Some(k)
    {
      LookupOwnName(m.states, k);
    }
    var p := AttachablePrefix(m.states, names, Fn(f));
    assert p == |names|;
    AttachEachThrows(m, names, Fn(f));
    AttachEachAppends(m, names, Fn(f));
    assert names[..p] == names;
    forall j | 0 <= j < |m.states|
      ensures AcceptedHits(m.states, names, Fn(f), j) == 1
    {
      AcceptedHitsPrefix(m.states, names, Fn(f), j);
      HitsAligned(m.states, names, 0, j);
    }
    assert Repeat(f, 1) == [f];
  }

  /** `subscribeToState('*', f)` (or any list led by `'*'`) on a started machine whose
      name index lists its registry's distinct names: the wildcard stands for every
      state, so nothing is thrown and `f` is appended once to every state. */
  lemma AttachWildcard(m: Machine, names: seq<string>, f: FnId)
    requires |names| > 0 && names[0] == Wildcard
    requires UniqueNames(m.states) && m.allStateNames.Some?
    requires |m.allStateNames.value| == |m.states|
    requires forall k :: 0 <= k < |m.states| ==> m.allStateNames.value[k] == m.states[k].name
    ensures Attach(m, names, Fn(f)).thrown.None?
    ensures forall j :: 0 <= j < |m.states| ==>
              Attach(m, names, Fn(f)).machine.states[j].subscribers == m.states[j].subscribers + [f]
  {
    assert Attach(m, names, Fn(f)) == AttachEach(m, m.allStateNames.value, Fn(f));
    AttachEachAll(m, m.allStateNames.value, f);
  }

  /** `start` with an empty queue is the activation loop alone. */
  lemma StartEmptyQueue(m: Machine)
    requires m.subscribeQueue == []
    ensures Start(m) == ActivateInitials(m.(initialized := true), 0)
  {
    assert Replay(m.(initialized := true), []) == Outcome(m.(initialized := true), [], None);
  }

  /** `start` with one queued subscription: that subscription, made live, then the
      activation loop unless it threw. */
  lemma StartOneQueued(m: Machine, sub: Subscription)
    requires m.subscribeQueue == [sub]
    ensures var a := Attach(m.(initialized := true), sub.names, sub.cb);
            Start(m) == if a.thrown.Some? then a else ActivateInitials(a.machine, 0)
  {
    var m1 := m.(initialized := true);
    var a := Attach(m1, sub.names, sub.cb);
    assert [sub][1..] == [];
    if a.thrown.None? {
      assert Replay(m1, [sub]) == Replay(a.machine, []);
    }
  }

  /** Subscribing before `start` and subscribing right after it leave the same
      subscriber lists and throw the same error. Only the deferred subscription is
      in place in time to hear the initial activations (`DeferredHearsInitial`). */
  lemma DeferredMatchesLive(m: Machine, pattern: Pattern, cb: Value)
    requires !m.initialized && m.subscribeQueue == []
    ensures var deferred := Start(Subscribe(m, pattern, cb).machine);
            var live := Subscribe(Start(m).machine, pattern, cb);
            && deferred.thrown == live.thrown
            && |deferred.machine.states| == |live.machine.states| == |m.states|
            && forall j :: 0 <= j < |m.states| ==>
                 deferred.machine.states[j].subscribers == live.machine.states[j].subscribers
  {
    var names := AsList(pattern);
    var q := Subscribe(m, pattern, cb).machine;
    var m1 := m.(initialized := true);
    StartOneQueued(q, Subscription(names, cb));
    StartEmptyQueue(m);
    var q1 := q.(initialized := true);
    var a := Attach(q1, names, cb);
    var s := ActivateInitials(m1, 0).machine;
    ActivateInitialsSkeleton(m1, 0);
    ActivateInitialsVisits(m1, 0);
    AttachAgrees(q1, s, names, cb);
    if a.thrown.None? {
      ActivateInitialsVisits(a.machine, 0);
    }
  }

  /** A subscription of `f` to every state, made before `start` on a machine that has
      entered nothing and has one state `i` flagged initial, is in place when `start`
      enters `i`: the calls of that `start` are `i`'s `onEnter`, then `i`'s subscribers,
      the last of them `f`. */
  lemma DeferredHearsInitial(m: Machine, names: seq<string>, f: FnId, i: nat)
    requires !m.initialized && m.subscribeQueue == [] && m.current.NoCurrent?
    requires UniqueNames(m.states)
    requires |names| == |m.states| && forall k :: 0 <= k < |names| ==> names[k] == m.states[k].name
    requires names == [] || names[0] != Wildcard
    requires i < |m.states| && Truthy(m.states[i].initial)
    requires forall j :: 0 <= j < |m.states| && j != i ==> !Truthy(m.states[j].initial)
    ensures var q := Subscribe(m, Many(names), Fn(f)).machine;
            var s := m.states[i].(subscribers := m.states[i].subscribers + [f]);
            var at := Moment(|m.history| + 1, Some(m.states[i].name));
            && Start(q).thrown.None?
            && Start(q).trace == EnterEvents(s, at, Undefined) + NotifyEvents(s, at)
  {
    var q := Subscribe(m, Many(names), Fn(f)).machine;
    var sub := Subscription(names, Fn(f));
    assert q == m.(subscribeQueue := [sub]);
    var q1 := q.(initialized := true);
    var a := Attach(q1, names, Fn(f));
    assert a == AttachEach(q1, names, Fn(f));
    AttachEachAll(q1, names, f);
    StartOneQueued(q, sub);
    assert Replay(q1, [sub]) == a by {
      assert [sub][1..] == [];
      assert Replay(a.machine, []) == Outcome(a.machine, [], None);
    }
    var p := a.machine;
    assert p.states[i] == m.states[i].(subscribers := m.states[i].subscribers + [f]);
    assert After(p, i) == Moment(|m.history| + 1, Some(m.states[i].name));
    StartEntersSoleInitial(q, i);
  }

  /** `start` does not empty the queue: a second `start` replays the deferred
      subscriptions again, so a callback queued once (`subscribeToState(name, f)` before
      the first `start`) for one registered state ends up in its list twice. */
  lemma StartTwiceDoublesQueued(m: Machine, name: string, f: FnId, i: nat)
    requires m.subscribeQueue == [Subscription([name], Fn(f))] && Lookup(m.states, name) == Some(i) && name != Wildcard
    ensures Start(m).machine.states[i].subscribers == m.states[i].subscribers + [f]
    ensures Start(Start(m).machine).machine.states[i].subscribers == m.states[i].subscribers + [f, f]
  {
    StartOnce(m, name, f, i);
    StartOnce(Start(m).machine, name, f, i);
    assert (m.states[i].subscribers + [f]) + [f] == m.states[i].subscribers + [f, f];
  }

  /** One `start` with a queue holding only `[name], f`: `f` is appended to the state
      `name` finds, which `name` still finds afterwards. */
  lemma StartOnce(m: Machine, name: string, f: FnId, i: nat)
    requires m.subscribeQueue == [Subscription([name], Fn(f))] && Lookup(m.states, name) == Some(i) && name != Wildcard
    ensures Lookup(Start(m).machine.states, name) == Some(i)
    ensures Start(m).machine.states[i].subscribers == m.states[i].subscribers + [f]
  {
    var m0 := m.(initialized := true);
    var p := Push(m0, name, Fn(f));
    assert Resolve(m0, [name]) == Some([name]);
    assert AttachEach(p, [], Fn(f)) == Outcome(p, [], None);
    assert AttachEach(m0, [name], Fn(f)) == Outcome(p, [], None);
    assert Replay(p, []) == Outcome(p, [], None);
    assert Replay(m0, m.subscribeQueue) == Outcome(p, [], None);
    var r := ActivateInitials(p, 0).machine;
    assert Start(m).machine == r;
    ActivateInitialsSkeleton(p, 0);
    ActivateInitialsVisits(p, 0);
    assert SameNames(m.states, r.states);
    LookupSameNames(m.states, r.states, name);
  }
}

=== FILE: registry.dfy ===
/** The state registry: `createStates` (name index and wildcard expansion), the
    linear `getState` scan, and the order-preserving difference behind
    `getImpossibleStates`. */
module Registry {
  import opened Values
  import opened StateEntity

  /** The wildcard sentinel of a `possibleStates` list. */
  const Wildcard: string := "*"

  /** `allStateNames`: the descriptors' names, in input order. */
  function NamesOf(ds: seq<Descriptor>): (r: seq<string>)
    ensures |r| == |ds|
    ensures forall i :: 0 <= i < |ds| ==> r[i] == ds[i].name
  {
    seq(|ds|, i requires 0 <= i < |ds| => ds[i].name)
  }

  /** A `possibleStates` that is missing, or whose first element is the wildcard, means "every state". */
  predicate ExpandsToAll(p: Option<seq<string>>) {
    p.None? || (|p.value| > 0 && p.value[0] == Wildcard)
  }

  /** The fix-up `createStates` applies to each descriptor before constructing its state. */
  function Normalize(d: Descriptor, all: seq<string>): (r: Descriptor)
    ensures r.possibleStates.Some?
    ensures ExpandsToAll(d.possibleStates) ==> r.possibleStates == Some(all)
    ensures !ExpandsToAll(d.possibleStates) ==> r == d
    ensures r.(possibleStates := d.possibleStates) == d
  {
    if ExpandsToAll(d.possibleStates) then d.(possibleStates := Some(all)) else d
  }

  /** Normalizing twice against the same name index changes nothing more. */
  lemma NormalizeIdempotent(d: Descriptor, all: seq<string>)
    ensures Normalize(Normalize(d, all), all) == Normalize(d, all)
  {
  }

  /** `createStates(arr)`: one state per descriptor, in order. Each carries its
      descriptor's name, callbacks and free-form fields, an expanded or untouched
      `possibleStates`, no visits and no subscribers, and is active exactly when its
      descriptor is flagged initial. */
  function CreateStates(ds: seq<Descriptor>): (r: seq<State>)
    ensures |r| == |ds|
    ensures forall i :: 0 <= i < |ds| ==>
              && r[i].name == ds[i].name
              && r[i].possibleStates.Some?
              && (ExpandsToAll(ds[i].possibleStates) ==> r[i].possibleStates.value == NamesOf(ds))
              && (!ExpandsToAll(ds[i].possibleStates) ==> r[i].possibleStates == ds[i].possibleStates)
              && r[i].visitedCount == 0
              && r[i].subscribers == []
              && (r[i].active <==> Truthy(ds[i].initial))
              && (Truthy(ds[i].initial) ==> r[i].initial == ds[i].initial)
              && (!Truthy(ds[i].initial) ==> r[i].initial == Bool(false))
              && (r[i].onEnter, r[i].onLeave, r[i].extra) == (ds[i].onEnter, ds[i].onLeave, ds[i].extra)
  {
    var all := NamesOf(ds);
    seq(|ds|, i requires 0 <= i < |ds| => NewState(Normalize(ds[i], all)))
  }

  /** `getState(name)`: the first state with that name, or none. */
  function Lookup(states: seq<State>, name: string): (r: Option<nat>)
    ensures r.Some? ==> r.value < |states| && states[r.value].name == name
    ensures r.Some? ==> forall j :: 0 <= j < r.value ==> states[j].name != name
    ensures r.None? <==> forall j :: 0 <= j < |states| ==> states[j].name != name
  {
    if |states| == 0 then None
    else if states[0].name == name then Some(0)
    else match Lookup(states[1..], name)
      case None => None
      case Some(k) => Some(k + 1)
  }

  /** Two registries whose states carry the same names, position by position. */
  predicate SameNames(a: seq<State>, b: seq<State>) {
    |a| == |b| && forall j :: 0 <= j < |a| ==> a[j].name == b[j].name
  }

  /** `getState` reads nothing but the names. */
  lemma {:induction false} LookupSameNames(a: seq<State>, b: seq<State>, name: string)
    requires SameNames(a, b)
    ensures Lookup(a, name) == Lookup(b, name)
  {
    if |a| > 0 && a[0].name != name {
      LookupSameNames(a[1..], b[1..], name);
    }
  }

  /** The elements of `names` that `excluded` does not contain, in their order in `names`
      (the filter behind `getImpossibleStates`). */
  function Without(names: seq<string>, excluded: seq<string>): (r: seq<string>)
    ensures forall x :: x in r <==> x in names && x !in excluded
    ensures |r| <= |names|
  {
    if names == [] then []
    else (if names[0] in excluded then [] else [names[0]]) + Without(names[1..], excluded)
  }

  /** The filter distributes over concatenation, so it keeps the relative order of the kept names. */
  lemma {:induction false} WithoutAppend(a: seq<string>, b: seq<string>, excluded: seq<string>)
    ensures Without(a + b, excluded) == Without(a, excluded) + Without(b, excluded)
  {
    if a == [] {
      assert a + b == b;
    } else {
      assert (a + b)[0] == a[0];
      assert (a + b)[1..] == a[1..] + b;
      WithoutAppend(a[1..], b, excluded);
    }
  }

  /** Nothing excluded: every name is kept, in order and with repetitions. */
  lemma {:induction false} WithoutNothing(names: seq<string>, excluded: seq<string>)
    requires forall x :: x in names ==> x !in excluded
    ensures Without(names, excluded) == names
  {
    if names != [] {
      WithoutNothing(names[1..], excluded);
    }
  }
}

=== FILE: scenarios.dfy ===
/** The three-state ring the engine's own test suite drives: 'state1' (initial) may go
    to 'state2', 'state2' to 'state3', 'state3' back to 'state1'. */
module Scenarios {
  import opened Values
  import opened StateEntity
  import opened Registry
  import opened Engine
  import opened EngineProperties

  const EnterSpy: FnId := 1
  const LeaveSpy: FnId := 2

  function Ring(): (ds: seq<Descriptor>)
    ensures |ds| == 3
  {
    [ Descriptor("state1", Bool(true), Some(["state2"]), Some(EnterSpy), Some(LeaveSpy), map[]),
      Descriptor("state2", Undefined, Some(["state3"]), None, Some(LeaveSpy), map[]),
      Descriptor("state3", Undefined, Some(["state1"]), Some(EnterSpy), Some(LeaveSpy), map[]) ]
  }

  /** What the tests rely on after building the machine from the ring and starting it. */
  predicate RingStarted(m: Machine) {
    && |m.states| == 3
    && m.states[0].name == "state1" && m.states[1].name == "state2" && m.states[2].name == "state3"
    && m.states[0].possibleStates == Some(["state2"])
    && m.states[1].possibleStates == Some(["state3"])
    && m.states[2].possibleStates == Some(["state1"])
    && m.allStateNames == Some(["state1", "state2", "state3"])
    && m.current == At(0) && m.history == ["state1"]
    && m.states[0].visitedCount == 1 && m.states[1].visitedCount == 0 && m.states[2].visitedCount == 0
  }

  /** Building and starting the ring enters 'state1', its one initial state, once. */
  lemma StartRing()
    ensures Start(New(Some(Ring()))).thrown.None?
    ensures RingStarted(Start(New(Some(Ring()))).machine)
  {
    var ds := Ring();
    var m := New(Some(ds));
    assert NamesOf(ds) == ["state1", "state2", "state3"];
    assert !ExpandsToAll(ds[0].possibleStates) && !ExpandsToAll(ds[1].possibleStates) && !ExpandsToAll(ds[2].possibleStates);
    assert m.states[0].possibleStates == Some(["state2"]);
    assert m.states[1].possibleStates == Some(["state3"]);
    assert m.states[2].possibleStates == Some(["state1"]);
    assert Truthy(m.states[0].initial) && !Truthy(m.states[1].initial) && !Truthy(m.states[2].initial);
    assert m.subscribeQueue == [];
    var r := Start(m).machine;
    StartActivatesInitials(m);
    assert InitialNames(m.states, 0) == ["state1"] by {
      assert InitialNames(m.states, 3) == [];
      assert InitialNames(m.states, 2) == [];
      assert InitialNames(m.states, 1) == [];
    }
    assert LastInitial(m.states, 0) == Some(0);
    assert r.history == ["state1"] && r.current == At(0);
    assert SameSkeleton(m.states, r.states);
  }

  /** Right after start: 'state1' is current, there is no previous state, and the
      impossible states are the ones 'state1' does not list, in registration order. */
  lemma StartScenario(m: Machine)
    requires RingStarted(m)
    ensures IsState(m, "state1") && !IsState(m, "state2")
    ensures GetPreviousState(m).None?
    ensures GetImpossibleStates(m) == ["state1", "state3"]
  {
    assert Possibles(m) == ["state2"];
    assert Without(["state1", "state2", "state3"], ["state2"]) == ["state1", "state3"] by {
      assert Without([], ["state2"]) == [];
      assert Without(["state3"], ["state2"]) == ["state3"];
      assert Without(["state2", "state3"], ["state2"]) == ["state3"];
    }
  }

  /** The jump to 'state2' is allowed: it counts one visit and makes 'state1' the
      previous state. */
  lemma AllowedScenario(m: Machine)
    requires RingStarted(m)
    ensures var r := GoToState(m, "state2", Undefined).machine;
            && CurrentName(r) == Some("state2") && r.history == ["state1", "state2"] && r.states[1].visitedCount == 1
            && GetPreviousState(r).Some? && GetPreviousState(r).value.name == "state1"
  {
    assert Lookup(m.states, "state2") == Some(1);
    var r := GoToState(m, "state2", Undefined).machine;
    assert r.states[0].name == "state1";
    assert Lookup(r.states, "state1") == Some(0);
  }

  /** From 'state2', which lists only 'state3', a jump back to 'state1' is refused and
      changes nothing. */
  lemma RefusedScenario(m: Machine)
    requires RingStarted(m)
    ensures var r := GoToState(m, "state2", Undefined).machine;
            GoToState(r, "state1", Undefined) == Outcome(r, [], None)
  {
    assert Lookup(m.states, "state2") == Some(1);
    var r := GoToState(m, "state2", Undefined).machine;
    assert r.current == At(1) && r.states[1].possibleStates == Some(["state3"]);
    assert !MayEnter(r, "state1");
  }

  /** Three `nextState` calls walk the ring from 'state1' through 'state2' and 'state3'
      back to 'state1', whatever the `possibleStates` say. */
  lemma NextScenario(m: Machine)
    requires RingStarted(m)
    ensures var one := NextState(m, Undefined).machine;
            var two := NextState(one, Undefined).machine;
            var three := NextState(two, Undefined).machine;
            && CurrentName(one) == Some("state2")
            && CurrentName(two) == Some("state3")
            && CurrentName(three) == Some("state1")
            && three.history == ["state1", "state2", "state3", "state1"]
  {
  }
  /** What the tests rely on right after building the machine from the ring. */
  predicate RingBuilt(m: Machine) {
    && |m.states| == 3
    && m.states[0].name == "state1" && m.states[1].name == "state2" && m.states[2].name == "state3"
    && Truthy(m.states[0].initial) && !Truthy(m.states[1].initial) && !Truthy(m.states[2].initial)
    && m.states[0].onEnter == Some(EnterSpy)
    && m.states[0].visitedCount == 0 && m.states[0].subscribers == []
    && m.current.NoCurrent? && m.history == [] && !m.initialized && m.subscribeQueue == []
  }

  /** Building the ring gives a machine that has entered nothing, with 'state1' alone
      flagged initial. */
  lemma BuildRing()
    ensures RingBuilt(New(Some(Ring())))
  {
    var m := New(Some(Ring()));
    assert m.states[0].name == "state1" && m.states[1].name == "state2" && m.states[2].name == "state3";
  }

  /** `subscribeToState(['state1', 'state2', 'state3'], f)` on the freshly built ring,
      before `start`. The start calls 'state1''s `onEnter` and then `f` exactly once,
      both seeing 'state1' active with one visit and a history of length 1. */
  lemma DeferredScenario(m: Machine, f: FnId)
    requires RingBuilt(m)
    ensures var q := Subscribe(m, Many(["state1", "state2", "state3"]), Fn(f)).machine;
            var at := Moment(1, Some("state1"));
            && Start(q).thrown.None?
            && Start(q).trace == [Lifecycle(Entered(EnterSpy, Snapshot("state1", true, 1), Undefined), at),
                                  Notify(f, Snapshot("state1", true, 1), at)]
  {
    var names := ["state1", "state2", "state3"];
    assert UniqueNames(m.states);
    assert forall k :: 0 <= k < |names| ==> names[k] == m.states[k].name;
    assert forall j :: 0 <= j < |m.states| && j != 0 ==> !Truthy(m.states[j].initial);
    DeferredHearsInitial(m, names, f, 0);
    RingEntryCalls(m, f);
  }

  /** Entering 'state1' of the freshly built ring with `f` as its one subscriber calls
      the `onEnter` spy, then `f`. */
  lemma RingEntryCalls(m: Machine, f: FnId)
    requires RingBuilt(m)
    ensures var s := m.states[0].(subscribers := m.states[0].subscribers + [f]);
            var at := Moment(|m.history| + 1, Some(m.states[0].name));
            EnterEvents(s, at, Undefined) + NotifyEvents(s, at)
              == [Lifecycle(Entered(EnterSpy, Snapshot("state1", true, 1), Undefined), Moment(1, Some("state1"))),
                  Notify(f, Snapshot("state1", true, 1), Moment(1, Some("state1")))]
  {
    var s := m.states[0].(subscribers := m.states[0].subscribers + [f]);
    assert s.subscribers == [f] && Seen(s) == Snapshot("state1", true, 1);
  }

  /** `setStates` is outside every run property: right after starting the ring, handing
      it the ring again resets every counter while the history keeps its entry, and
      marks 'state1' active while the current state is the replaced object. */
  lemma SetStatesAfterStart()
    ensures var r := SetStates(Start(New(Some(Ring()))).machine, Ring());
            && |r.history| == 1 && Total(r.states) == 0
            && r.states[0].active && !ActiveIsCurrent(r)
  {
    StartRing();
    var r := SetStates(Start(New(Some(Ring()))).machine, Ring());
    ZeroTotal(r.states);
    assert r.states[0].active && r.current.Stale?;
  }
}

=== FILE: src_engine.dfy ===
/** The engine as written in the unbundled sources. It differs from the bundled engine
    in three operations: `goToState` has neither the bootstrap case nor the unknown-name
    check, `isState` has no null check, and `decorateStates` goes through the shared
    prototype table (`State.addMethod`). Every other operation is the same code. */
module SrcEngine {
  import opened Values
  import opened StateEntity
  import opened Registry
  import opened Engine

  /** `goToState(name, params)`: reads the current state's `possibleStates` straight
      away, so a current state must exist, and hands whatever `getState` returns to the
      transition, so every allowed name must be registered. Where both are met it does
      exactly what the bundled `goToState` does. */
  function GoToState(m: Machine, name: string, params: Value): (r: Outcome)
    requires !m.current.NoCurrent?
    requires name in Possibles(m) ==> Lookup(m.states, name).Some?
    ensures (r.machine == m && r.trace == []) <==> name !in Possibles(m)
    ensures name in Possibles(m) ==> r.machine.history == m.history + [name] && CurrentName(r.machine) == Some(name)
    ensures r == Engine.GoToState(m, name, params)
  {
    if name in Possibles(m) then Transition(m, Lookup(m.states, name).value, params)
    else Outcome(m, [], None)
  }

  /** `isState(name)`: dereferences the current state, so one must exist. */
  function IsState(m: Machine, name: string): (r: bool)
    requires !m.current.NoCurrent?
    ensures r <==> CurrentState(m).value.name == name
    ensures r == Engine.IsState(m, name)
  {
    CurrentState(m).value.name == name
  }

  /** `decorateStates(name, fn)`: `State.addMethod(name, fn)` on the prototype table
      shared by every state object; the machine itself is untouched. */
  function DecorateStates(proto: Prototype, name: string, fn: Value): (r: Prototype)
    ensures forall s :: OwnField(s, name) == Undefined ==> Get(s, r, name) == fn
    ensures forall s, key :: key != name ==> Get(s, r, key) == Get(s, proto, key)
  {
    AddMethod(proto, name, fn)
  }

  /** Bootstrapping: the bundled `goToState` may enter any registered state while nothing
      is current, which the unbundled one cannot do at all. */
  lemma BootstrapOnlyBundled(m: Machine, name: string, params: Value)
    requires m.current.NoCurrent? && Lookup(m.states, name).Some?
    ensures Engine.GoToState(m, name, params).machine.history == m.history + [name]
    ensures CurrentName(Engine.GoToState(m, name, params).machine) == Some(name)
  {
  }

  /** The two decorations reach different states. A free-form name `key` that no
      descriptor carries: the unbundled decoration reaches the states of a registry set
      afterwards, the bundled one does not; both reach the states present when called. */
  lemma DecorationReach(m: Machine, proto: Prototype, ds: seq<Descriptor>, key: string, fn: Value)
    requires key !in StateKeys && key !in proto && fn != Undefined
    requires forall i :: 0 <= i < |ds| ==> key !in ds[i].extra
    requires forall j :: 0 <= j < |m.states| ==> key !in m.states[j].extra
    ensures var later := SetStates(m, ds).states;
            forall j :: 0 <= j < |later| ==> Get(later[j], DecorateStates(proto, key, fn), key) == fn
    ensures var later := SetStates(Engine.DecorateStates(m, key, fn), ds).states;
            forall j :: 0 <= j < |later| ==> Get(later[j], proto, key) == Undefined
    ensures forall j :: 0 <= j < |m.states| ==> Get(m.states[j], DecorateStates(proto, key, fn), key) == fn
    ensures var now := Engine.DecorateStates(m, key, fn).states;
            forall j :: 0 <= j < |now| ==> Get(now[j], proto, key) == fn
  {
    var later := CreateStates(ds);
    forall j | 0 <= j < |later|
      ensures OwnField(later[j], key) == Undefined
    {
      assert later[j].extra == ds[j].extra;
    }
  }
}

=== FILE: state.dfy ===
/** One named state of the machine: the `State` constructor, its prototype methods
    `activate`, `deactivate` and `isActive`, and `State.addMethod`. */
module StateEntity {
  import opened Values

  /** A caller's state descriptor: the fields the engine reads, plus every other own
      property of the object in `extra`. A missing field is `None` (or `Undefined`). */
  datatype Descriptor = Descriptor(
    name: string,
    initial: Value,
    possibleStates: Option<seq<string>>,
    onEnter: Option<FnId>,
    onLeave: Option<FnId>,
    extra: map<string, Value>)

  /** A state object. `subscribers` is the list the engine pushes onto; the source
      creates that property with its first push, so it is an own field exactly when
      it is non-empty. */
  datatype State = State(
    name: string,
    initial: Value,
    possibleStates: Option<seq<string>>,
    onEnter: Option<FnId>,
    onLeave: Option<FnId>,
    active: bool,
    visitedCount: nat,
    subscribers: seq<FnId>,
    extra: map<string, Value>)

  /** The fields the constructor sets after copying the descriptor. */
  const Defaults: set<string> := {"initial", "visitedCount", "active"}

  /** The fields a state object owns apart from its descriptor's free-form ones. */
  const StateKeys: set<string> :=
    {"name", "initial", "possibleStates", "onEnter", "onLeave", "active", "visitedCount", "subscribers"}

  /** The prototype methods the engine calls on a state object. */
  const StateMethods: set<string> := {"activate", "deactivate", "isActive"}

  /** What a callback can see of the state object it is handed. */
  datatype Snapshot = Snapshot(name: string, active: bool, visitedCount: nat)

  function SnapshotOf(s: State): Snapshot {
    Snapshot(s.name, s.active, s.visitedCount)
  }

  /** One invocation of a lifecycle callback: `onEnter(state, params)` or `onLeave(state)`. */
  datatype Hook =
    | Entered(fn: FnId, self: Snapshot, params: Value)
    | Left(fn: FnId, self: Snapshot)

  /** A state after a lifecycle method, with the callbacks that method invoked. */
  datatype Fired = Fired(state: State, hooks: seq<Hook>)

  /** The table of methods every state object inherits (`State.prototype`). */
  type Prototype = map<string, Value>

  /** Own property `key` of a descriptor object; `Undefined` when it has none. */
  function DescriptorField(d: Descriptor, key: string): Value {
    if key == "name" then Str(d.name)
    else if key == "initial" then d.initial
    else if key == "possibleStates" && d.possibleStates.Some? then Strs(d.possibleStates.value)
    else if key == "onEnter" && d.onEnter.Some? then Fn(d.onEnter.value)
    else if key == "onLeave" && d.onLeave.Some? then Fn(d.onLeave.value)
    else if key in d.extra then d.extra[key]
    else Undefined
  }

  /** Own property `key` of a state object; `Undefined` when it has none. */
  function OwnField(s: State, key: string): Value {
    if key == "name" then Str(s.name)
    else if key == "initial" then s.initial
    else if key == "active" then Bool(s.active)
    else if key == "visitedCount" then Num(s.visitedCount)
    else if key == "possibleStates" && s.possibleStates.Some? then Strs(s.possibleStates.value)
    else if key == "onEnter" && s.onEnter.Some? then Fn(s.onEnter.value)
    else if key == "onLeave" && s.onLeave.Some? then Fn(s.onLeave.value)
    else if key == "subscribers" && |s.subscribers| > 0 then Fns(s.subscribers)
    else if key in s.extra then s.extra[key]
    else Undefined
  }

  /** Property access `s[key]`: an own field first, then the prototype table. */
  function Get(s: State, proto: Prototype, key: string): Value {
    var own := OwnField(s, key);
    if own != Undefined then own
    else if key in proto then proto[key]
    else Undefined
  }

  /** The `State` constructor: copy every own property of the descriptor, then set
      `initial`, `visitedCount` and `active`, overriding any copied value. */
  function NewState(d: Descriptor): (s: State)
    ensures OwnField(s, "visitedCount") == Num(0)
    ensures OwnField(s, "active") == Bool(Truthy(d.initial))
    ensures Truthy(d.initial) ==> OwnField(s, "initial") == d.initial
    ensures !Truthy(d.initial) ==> OwnField(s, "initial") == Bool(false)
    ensures forall key :: key !in Defaults ==> OwnField(s, key) == DescriptorField(d, key)
    ensures s.subscribers == []
  {
    State(d.name, Or(d.initial, Bool(false)), d.possibleStates, d.onEnter, d.onLeave,
          Truthy(d.initial), 0, [], d.extra)
  }

  /** `activate(params)`: mark the state active, count the visit, then call `onEnter`. */
  function Activate(s: State, params: Value): (r: Fired)
    ensures r.state.active
    ensures r.state.visitedCount == s.visitedCount + 1
    ensures r.state.(active := s.active, visitedCount := s.visitedCount) == s
    ensures s.onEnter.None? ==> r.hooks == []
    ensures s.onEnter.Some? ==>
              r.hooks == [Entered(s.onEnter.value, Snapshot(s.name, true, s.visitedCount + 1), params)]
  {
    var entered := s.(active := true, visitedCount := s.visitedCount + 1);
    Fired(entered, if entered.onEnter.Some? then [Entered(entered.onEnter.value, SnapshotOf(entered), params)] else [])
  }

  /** `deactivate()`: mark the state inactive, then call `onLeave`; the visit count stays. */
  function Deactivate(s: State): (r: Fired)
    ensures !r.state.active
    ensures r.state.visitedCount == s.visitedCount
    ensures r.state.(active := s.active) == s
    ensures s.onLeave.None? ==> r.hooks == []
    ensures s.onLeave.Some? ==> r.hooks == [Left(s.onLeave.value, Snapshot(s.name, false, s.visitedCount))]
  {
    var left := s.(active := false);
    Fired(left, if left.onLeave.Some? then [Left(left.onLeave.value, SnapshotOf(left))] else [])
  }

  /** `isActive()`: the state's `active` property. */
  function IsActive(s: State): (r: bool)
    ensures OwnField(s, "active") == Bool(r)
    ensures forall proto :: Get(s, proto, "active") == Bool(r)
  {
    s.active
  }

  /** `State.addMethod(name, fn)`: put `fn` on the prototype table, so every state
      object without an own `name` field resolves `name` to it, whenever it was built. */
  function AddMethod(proto: Prototype, name: string, fn: Value): (r: Prototype)
    ensures forall s :: OwnField(s, name) == Undefined ==> Get(s, r, name) == fn
    ensures forall s :: OwnField(s, name) != Undefined ==> Get(s, r, name) == OwnField(s, name)
    ensures forall s, key :: key != name ==> Get(s, r, key) == Get(s, proto, key)
  {
    proto[name := fn]
  }

  /** Lifecycle round trip: deactivating an activated state leaves it inactive with
      exactly one more visit, whatever callbacks it has. */
  lemma ActivateThenDeactivate(s: State, params: Value)
    ensures var back := Deactivate(Activate(s, params).state).state;
            !IsActive(back) && back.visitedCount == s.visitedCount + 1 && back.(visitedCount := s.visitedCount, active := s.active) == s
  {
  }
}

=== FILE: values.dfy ===
/** The host-language values the state machine touches without interpreting them. */
module Values {

  /** The usual Some/None datatype, used where the source has `null` or `undefined`. */
  datatype Option<+T> = None | Some(value: T)

  /** The identity of a caller-supplied function: a lifecycle callback, a subscriber or a decorator. */
  type FnId = nat

  /** A JavaScript value, as far as the machine inspects it. Other objects (such as the
      `{test: 123}` payload handed to `onEnter`) are opaque and carry only a tag. */
  datatype Value =
    | Undefined
    | Null
    | Bool(b: bool)
    | Num(n: int)
    | Str(s: string)
    | Strs(items: seq<string>)
    | Fn(id: FnId)
    | Fns(ids: seq<FnId>)
    | Other(tag: string)

  /** JavaScript truthiness (NaN is not a value of this model). */
  predicate Truthy(v: Value) {
    match v
    case Undefined => false
    case Null => false
    case Bool(b) => b
    case Num(n) => n != 0
    case Str(s) => s != ""
    case _ => true
  }

  /** The JavaScript expression `a || b`. */
  function Or(a: Value, b: Value): Value {
    if Truthy(a) then a else b
  }
}
